=== FILE: README.md ===
# Account verification core of an e-commerce administration backend

This project models the account logic of a Node/Express backend with three
privilege tiers (SuperAdmin, Admin, User). The model is written in Dafny and
its properties are proved.

**SuperAdmin verification state machine**:
- Registration validates the body in a fixed order, refuses a duplicate email and stores a record with a bcrypt digest of the password and `isVerified = false`.
- It then issues a four-digit one-time password (OTP). The OTP is stored as a digest in a verification ledger with a six-hour expiry, then mailed.
- `verifyOtp` checks the challenge, flips the flag and discards the challenge.
- `resendVerificationOtp` replaces all earlier challenges with a new one.
- `loginSuperAdmin` issues a one-hour token only to a verified record whose password matches.

**Modelling approach**:
- Each handler is a pure function from a state and its inputs to the next state and the first HTTP response the handler emits.
- The state holds the three identity collections, the ledger and the mails sent.

**Also modelled**:
- The Admin handlers: registration, and a login with no verification gate.
- The registration handlers for Users and Admins in the SuperAdmin controller.
- The required-field check of the SuperAdmin profile update.
- The schema helpers:
  - the public-id generators (role letter, two capitals, five zero-padded digits);
  - the email `match` validator, written as a recognizer and proved equal to the grammar of the regular expression;
  - the enum paths and their defaults.

**Collaborators, made explicit**:
- `bcrypt.hash`/`compare` are an ideal digest (`Crypto.Hash`, `Crypto.Compare`).
- `jwt.sign` is a token naming a subject and a one-hour lifetime (`Crypto.Sign`).
- `Date.now()` is a `now: int` parameter.
- `Math.random()` becomes integer draws: `Ledger.OtpDraw` (0..8999), `Identifiers.IdDraw` (two letter indices 0..25, a serial 0..99999).
- The mail transport's outcome is a `Delivery` parameter.
- Mongo's `_id` is a counter in each collection.

**Collections and the ledger**:
- A collection is a sequence in insertion order, so `findOne` returns the first match.
- The ledger maps an id to its challenges, oldest first. `findOne` sees the oldest; `deleteMany` removes them all.

**Request bodies and strings**:
- Request fields are absent or strings. JavaScript's `!field` is `!Truthy(field)`.
- `password.length` counts UTF-16 code units.
- The email paths declare `trim: true`. The stored email and the `findOne({ email })` filter are therefore both trimmed (`Accounts.EmailKey`).

Behaviour of the code worth noting:
- The first response of a SuperAdmin registration is the "OTP sent" message, or the mail failure; the stored record is not returned.
- An unknown challenge gets a 400 with "Account record does not exist".
- The User schema's `isVerified` has no default, and the Admin schema has no such path. Only the SuperAdmin record starts as `false`.
- Emails are trimmed before they are stored or looked up.
- A resend mails a fresh code for any id to whatever address the request names. Whoever knows a record's id can therefore verify it (`SuperAdminController.ResendToAnyAddress`).
- A resend can also plant a challenge for an id no record has yet. The next registration would then find that older challenge first in line. This is why `RegisteredRecord` and `RegisterVerifyLogin` assume the next id has no challenges.

## Model

| member | source | states |
|---|---|---|
| Text.Utf16Length | controller/SuperAdminController.js:66 | `password.length` lies between the number of characters and twice that, and equals the number of characters exactly when none lies beyond U+FFFF |
| Text.CodeUnits | controller/SuperAdminController.js:66 | one character is two UTF-16 code units exactly when it lies beyond U+FFFF, and one otherwise |
| Text.Utf16LengthOne | controller/SuperAdminController.js:66 | the length of a one-character string is that character's code-unit count |
| Text.Utf16LengthConcat | controller/SuperAdminController.js:66 | the length of a concatenation is the sum of the lengths, so the length is the per-character count summed |
| Requests.Truthy | controller/SuperAdminController.js:62-65 | JavaScript's `!field` test: a field is falsy exactly when it is absent (`undefined` or `null`) or the empty string |
| Text.IsJsWhitespace | model/SuperAdminModel.js:38-40 | the `\s` class and the set `trim` removes: every line terminator is in it; on ASCII it is exactly tab, line feed, vertical tab, form feed, carriage return and space; every member is a single UTF-16 code unit |
| Text.Trim | model/SuperAdminModel.js:38 | the `trim` setter: the result is a slice of the input with only whitespace outside it and none at its ends; an input with no whitespace at its ends is kept unchanged |
| Text.TrimCharacterized | model/SuperAdminModel.js:38 | any slice whose outside is whitespace and whose ends are not is exactly the trimmed string, so `trim` removes leading and trailing whitespace and nothing else |
| Text.TrimIdempotent | model/SuperAdminModel.js:38 | trimming an already trimmed string changes nothing |
| Text.DecimalString | model/SuperAdminModel.js:9 | `n.toString()`: a digit string with no leading zero that parses back to `n`, one character exactly when `n < 10` |
| Text.PadStart | model/SuperAdminModel.js:9 | `padStart(width, fill)`: the input is the suffix, everything before it is the fill, and the length is the larger of the two |
| Text.PaddedNumeralOfValue | model/SuperAdminModel.js:9 | every non-empty digit string is the zero-padded numeral of its own value, so padding loses nothing |
| Text.SplitJoin | model/SuperAdminModel.js:40 | splitting a dot-join of dot-free parts gives those parts back (the inverse the recognizer relies on) |
| Text.JoinShape | model/SuperAdminModel.js:40 | a join of non-empty, dot-free parts neither starts nor ends with a dot and never holds two dots in a row |
| Crypto.CompareHash | controller/SuperAdminController.js:73 | a digest compares equal to the text it was made from and to no other text |
| Crypto.Sign | controller/SuperAdminController.js:202-204 | the token names the record's id and lasts one hour |
| Accounts.EmailKey | model/SuperAdminModel.js:38 | the `trim` setter applied to stored emails and to the `findOne({ email })` filter: never longer than the input, with no whitespace at either end of a nonempty result, and the input itself when it has no whitespace at either end |
| Accounts.EmailTaken | controller/SuperAdminController.js:69-70 | the duplicate check: taken exactly when some stored record has the trimmed email |
| Accounts.FindByEmail | controller/SuperAdminController.js:69 | `findOne({ email })`: the first record with that email, or none exactly when no record has it |
| Accounts.FindById | controller/SuperAdminController.js:157 | `findOne({ _id })`: the first record with that id, or none exactly when no record has it |
| Accounts.SetVerified | controller/SuperAdminController.js:157 | `updateOne`: only the flag of the record with the id changes, to true; an unknown id changes nothing |
| Accounts.FindByEmailUnique | controller/SuperAdminController.js:189 | in a valid collection the record found by email is the only one with that email |
| Accounts.SetVerifiedPreservesValid | controller/SuperAdminController.js:157 | setting a flag keeps ids and emails unique |
| Auth.RegistrationError | controller/SuperAdminController.js:62-66 | first name, last name, email and password presence, then a length of at least 6; each message exactly when every earlier check passed and its own fails |
| Auth.RegistrationErrorIgnoresDetails | controller/SuperAdminController.js:62-66 | no profile field can fail registration's validation |
| Auth.Admit | controller/SuperAdminController.js:62-95 | refused with the first validation message, else with "Email already in use" exactly when the trimmed email is taken; otherwise exactly one record appended, under a fresh id, holding a digest that matches the password and the given verification state |
| Accounts.AppendPreservesValid | controller/SuperAdminController.js:69-95 | storing a record under the next id with an email no record has keeps ids and emails unique |
| Auth.AdmitPreservesValid | controller/SuperAdminController.js:69-95 | the duplicate check keeps emails unique, and fresh ids keep ids unique |
| Auth.AdmitRejectsDuplicate | controller/SuperAdminController.js:69-70 | registering an email again, even with different surrounding whitespace, is refused |
| Auth.CheckCredentials | controller/SuperAdminController.js:185-194 | email presence first, then password; once a record is found by email, a match exactly when its digest matches the password, and then that record; an unknown email gives the same mismatch as a wrong password |
| Auth.CheckCredentialsComplete | controller/SuperAdminController.js:189-194 | in a valid collection, credentials match exactly when some record has the trimmed email and a digest of the password |
| Auth.CredentialsMatchSound | controller/SuperAdminController.js:185-194 | a match is always a record with the trimmed email and a digest of the password |
| Auth.CredentialsMatchComplete | controller/SuperAdminController.js:185-194 | in a valid collection, any record with the trimmed email and a digest of the password makes the credentials match |
| Auth.AdmitThenCredentialsMatch | controller/SuperAdminController.js:69-95 | after a registration, its own email and password match the new record |
| Ledger.OtpCode | controller/SuperAdminController.js:110 | the code is four digits with a non-zero first digit, and its value is 1000 plus the draw |
| Ledger.OtpCodeInjective | controller/SuperAdminController.js:110 | distinct draws give distinct codes |
| Ledger.NewChallenge | controller/SuperAdminController.js:118-124 | the stored digest matches the code and no other text; the expiry is 21,600,000 ms after creation |
| Ledger.FindChallenge | controller/SuperAdminController.js:141 | `findOne({ superAdminId })`: the oldest challenge for the id, none exactly when there is none |
| Ledger.Insert | controller/SuperAdminController.js:126 | the id's challenges gain one at the end; other ids are untouched |
| Ledger.DeleteAll | controller/SuperAdminController.js:148 | `deleteMany`: the id keeps no challenge; other ids are untouched |
| Ledger.InsertPreservesValid | model/superAdminVerification.js:11-16 | every stored challenge still expires six hours after its creation |
| Ledger.DeleteAllPreservesValid | model/superAdminVerification.js:11-16 | deleting challenges keeps the ledger valid |
| Identifiers.Letter | model/SuperAdminModel.js:5-8 | `letters.charAt(i)` is an upper-case letter |
| Identifiers.Generate | model/SuperAdminModel.js:4-11 | eight characters: the prefix, two capitals naming the letter draws, five digits whose value is the serial |
| Identifiers.SerialDigits | model/SuperAdminModel.js:9 | five digits whose value is the serial |
| Identifiers.ParseGenerate | model/SuperAdminModel.js:4-11 | a generated id parses back to its draws |
| Identifiers.GenerateParse | model/SuperAdminModel.js:4-11 | anything that parses is exactly the id its draws generate |
| Identifiers.GeneratedIffWellFormed | model/SuperAdminModel.js:4-11 | the ids the generator can produce are exactly the well-formed ones |
| SuperAdminModel.GenerateId | model/SuperAdminModel.js:4-11 | "S", two capitals and five digits, from which the draws can be recovered |
| SuperAdminModel.ResolveIsVerified | model/SuperAdminModel.js:91-94 | always a boolean; true only when set so, false by default |
| UserModel.GenerateId | model/UserModel.js:5-12 | "U", two capitals and five digits, from which the draws can be recovered |
| UserModel.ResolveIsVerified | model/UserModel.js:95-98 | no state exactly when none was given (no default) |
| AdminModel.GenerateId | model/AdminModel.js:4-11 | "A", two capitals and five digits, from which the draws can be recovered |
| AdminModel.ResolveIsVerified | model/AdminModel.js:14-91 | the schema has no `isVerified` path, so an Admin record is never verified |
| OrderModel.GenerateId | model/OrderModel.js:4-11 | "O", two capitals and five digits, from which the draws can be recovered |
| EmailPattern.LastIndexOf | model/SuperAdminModel.js:40 | the position of the last '@', with no '@' after it; none exactly when there is no '@' |
| EmailPattern.Matches | model/SuperAdminModel.js:40 | the regular expression's `test`: a matched string holds an '@', has at least three characters and ends in a letter or a ']' |
| EmailPattern.Accepts | model/SuperAdminModel.js:38-40 | trim, then the pattern: accepts exactly the strings whose trimmed form the grammar describes |
| EmailPattern.MatchesCorrect | model/SuperAdminModel.js:40 | the recognizer (split at the last '@', then at dots) accepts exactly the strings the regular expression's grammar describes |
| EmailPattern.DotAtomCorrect | model/SuperAdminModel.js:40 | a local part passes the dot-atom check exactly when it is non-empty atoms joined by dots |
| EmailPattern.BracketCorrect | model/SuperAdminModel.js:40 | a domain passes the bracket check exactly when it is `[` plus the pattern's number of 1-3-digit groups joined by dots, plus `]` |
| EmailPattern.HostCorrect | model/SuperAdminModel.js:40 | a domain passes the host check exactly when it is one or more labels, each followed by a dot, then at least two ASCII letters |
| EmailPattern.DomainHasNoAt | model/SuperAdminModel.js:40 | no accepted domain holds an '@', so the split point is unique |
| EmailPattern.DotAtomShape | model/SuperAdminModel.js:40 | an unquoted local part neither starts nor ends with '.', and never holds ".." |
| EmailPattern.HostShape | model/UserModel.js:40 | a host domain ends in two ASCII letters, contains a dot and starts with a label character |
| EmailPattern.NonHostDomainRejected | model/SuperAdminModel.js:40 | a domain that is not a bracket literal and is shorter than four characters or has no dot is refused, whatever the local part |
| EmailPattern.NonHostAddressRefused | model/SuperAdminModel.js:38-40 | the same refusal through the trim-then-match validator, for an address without surrounding whitespace |
| EmailPattern.ShortDomainsRejected | model/SuperAdminModel.js:40 | "a@b.c" and "a@localhost" are refused by every variant of the pattern |
| EmailPattern.MatchValidator | model/AdminModel.js:32-36 | the `match` validator alone passes an empty (trimmed) value untested, and otherwise accepts exactly the strings of the grammar |
| EmailPattern.EmailPathValid | model/AdminModel.js:28-37 | `trim`, then `required`, then `match`: the path accepts exactly the trimmed strings of the grammar; `EmailPathValid(raw, EmailAsWritten)` is each schema's path as written |
| EmailPattern.BlankPassesMatchOnly | model/AdminModel.js:30-36 | empty or whitespace-only input passes `match` and is refused by the path, through `required` |
| EmailPattern.EmailPathIsPattern | model/AdminModel.js:28-37 | with `required` in front, the path is exactly the pattern test on the trimmed value |
| EmailPattern.ValidEmail | model/AdminModel.js:28-37 | the same path with the corrected pattern accepts exactly the trimmed strings of the corrected grammar |
| EmailPattern.PlainAddressAccepted | model/OrderModel.js:33 | an unquoted address with a host domain is accepted by the written and the corrected patterns alike |
| EmailPattern.BracketGroupsDecide | model/UserModel.js:40 | a bracketed domain is accepted exactly when its group count is the pattern's |
| EmailPattern.QuotedRejectedAsWritten | model/SuperAdminModel.js:40 | as written, a bare quoted local part is refused with every domain |
| EmailPattern.LeadQuotedAcceptedAsWritten | model/SuperAdminModel.js:40 | as written, any one extra character before a quoted local part makes it pass |
| EmailPattern.QuotedAccepted | model/SuperAdminModel.js:40 | corrected, every quoted local part is accepted with every valid domain |
| EmailPattern.LeadQuotedRejected | model/SuperAdminModel.js:40 | corrected, a character other than a quote in front of the quoted form is refused |
| EmailPattern.QuotedExampleAsWritten | model/SuperAdminModel.js:40 | `"john"@example.com` is refused as written |
| EmailPattern.LeadQuotedExampleAsWritten | model/SuperAdminModel.js:40 | `x"john"@example.com` is accepted as written |
| EmailPattern.QuotedExample | model/SuperAdminModel.js:40 | `"john"@example.com` is accepted once corrected |
| EmailPattern.DottedQuadRejectedAsWritten | model/UserModel.js:40 | as written in the User schema, every dotted-quad literal is refused while its two-group prefix is accepted |
| EmailPattern.DottedQuadAccepted | model/UserModel.js:40 | corrected, a bracketed domain is accepted exactly when it has four groups |
| EmailPattern.BracketAddressDecide | model/UserModel.js:40 | with an unquoted local part, a bracketed address is accepted exactly when its group count is the pattern's |
| EmailPattern.DottedQuadExampleAsWritten | model/UserModel.js:40 | `a@[192.168.0.1]` is refused and `a@[192.168]` accepted as written |
| EmailPattern.DottedQuadExample | model/UserModel.js:40 | `a@[192.168.0.1]` is accepted once corrected |
| Enums.ParseSex | model/SuperAdminModel.js:73-77 | accepts exactly "MALE" and "FEMALE", and reads back to the stored name |
| Enums.ParseMaritalStatus | model/SuperAdminModel.js:78-82 | accepts exactly "SINGLE" and "MARRIED", and reads back to the stored name |
| Enums.ParsePaymentStatus | model/OrderModel.js:69-73 | accepts exactly "unpaid" and "paid", and reads back to the stored name |
| Enums.ParseDeliveryStatus | model/OrderModel.js:74-78 | accepts exactly "undelivered" and "delivered", and reads back to the stored name |
| Enums.NamesRoundTrip | model/UserModel.js:77-86 | every enum value's stored name is accepted and reads back as that value |
| Enums.CaseMatters | model/OrderModel.js:69-78 | the enum check is case-sensitive |
| Enums.ResolveSex | model/SuperAdminModel.js:73-77 | required: absent or empty fails with the path's message; otherwise accepted exactly when it names a sex |
| Enums.ResolveMaritalStatus | model/SuperAdminModel.js:78-82 | optional: absent stores nothing; a present string is accepted exactly when it names a status |
| Enums.ResolvePaymentStatus | model/OrderModel.js:69-73 | absent takes "unpaid"; a present string is accepted exactly when it names a status |
| Enums.ResolveDeliveryStatus | model/OrderModel.js:74-78 | absent takes "undelivered"; a present string is accepted exactly when it names a status |
| Enums.NewOrderDefaults | model/OrderModel.js:69-78 | a new order is unpaid and undelivered |
| Enums.ResolveName | model/AdminModel.js:67-76 | resolving a value's stored name gives that value, on every path |
| AdminController.RegisterAdmin | controller/AdminController.js:7-59 | the shared validation order and duplicate check; 400 with the state unchanged, or 200 with exactly one new record under the next id holding the form's names and profile fields, the trimmed email, a password digest and no verification state |
| AdminController.LoginAdmin | controller/AdminController.js:62-84 | email before password; "Invalid email or password" for an unknown email or a wrong password; 200 with a one-hour token exactly when the credentials match, with no verification gate |
| AdminController.LoginAdminComplete | controller/AdminController.js:70-83 | in a valid collection, login succeeds exactly when some record has the trimmed email and a matching digest |
| AdminController.LoginAdminHidesCause | controller/AdminController.js:71-75 | a wrong password is answered exactly as an unknown email is |
| AdminController.RegisterAdminPreservesValid | controller/AdminController.js:33-55 | registration keeps ids and emails unique |
| AdminController.RegisterThenLogin | controller/AdminController.js:40-83 | a freshly registered admin logs in at once with the same credentials |
| SuperAdminController.SendEmailVerification | controller/SuperAdminController.js:108-132 | one challenge appended for the id, matching the mailed code and expiring in six hours, even when delivery fails; the mail goes to the given address; 200 "OTP sent" or 500 with the transport's message |
| SuperAdminController.RegisterSuperAdmin | controller/SuperAdminController.js:62-101 | a refusal leaves the state unchanged; otherwise exactly one unverified record with the form's names and details and a password digest, one challenge for it and none for any other id, the code mailed to the trimmed address (no mail when delivery fails); 200 exactly when admitted and delivered |
| SuperAdminController.VerifyOtp | controller/SuperAdminController.js:134-164 | missing input, then no challenge, then expiry (strict, discarding the challenges), then a wrong code (changing nothing); success exactly when the oldest challenge is unexpired and matches, and then only the record's flag changes and its challenges are gone |
| SuperAdminController.ResendVerificationOtp | controller/SuperAdminController.js:165-177 | missing id or email changes nothing; otherwise the id is left with exactly one new challenge and other ids are untouched |
| SuperAdminController.LoginSuperAdmin | controller/SuperAdminController.js:181-208 | the not-verified answer happens exactly when the password matched and the flag is not set; 200 with a one-hour token exactly when it is set |
| SuperAdminController.RegisterUser | controller/SuperAdminController.js:316-346 | the shared validation against the User collection; on success one new record under the next id with the form's names and profile fields, the trimmed email, a password digest and no verification state; nothing else changes |
| SuperAdminController.RegisterAdmin | controller/SuperAdminController.js:448-481 | the same handler as the Admin controller's, on the Admin collection; a refusal changes nothing |
| SuperAdminController.UpdateRequiredFieldsError | controller/SuperAdminController.js:231-236 | passes exactly when all ten required fields are present and non-empty |
| SuperAdminController.InitialValid | controller/SuperAdminController.js:41-106 | the empty state satisfies the invariant |
| SuperAdminController.RegisterSuperAdminPreservesValid | controller/SuperAdminController.js:62-132 | registration keeps every collection's ids and emails unique and every challenge's six-hour expiry |
| SuperAdminController.VerifyOtpPreservesValid | controller/SuperAdminController.js:134-164 | verification keeps the invariant |
| SuperAdminController.ResendPreservesValid | controller/SuperAdminController.js:165-177 | a resend keeps the invariant |
| SuperAdminController.RegisterUserPreservesValid | controller/SuperAdminController.js:316-346 | user registration keeps the invariant |
| SuperAdminController.RegisterAdminPreservesValid | controller/SuperAdminController.js:448-481 | admin registration keeps the invariant |
| SuperAdminController.SameValidationEverywhere | controller/SuperAdminController.js:316-320 | all three registration handlers refuse an invalid body with the same response and store nothing |
| SuperAdminController.OtpSingleUse | controller/SuperAdminController.js:157-158 | after a successful verification, any further attempt finds no challenge |
| SuperAdminController.ExpiryIsStrict | controller/SuperAdminController.js:147 | the right code verifies at the expiry instant and is refused as expired one millisecond later |
| SuperAdminController.ResendInvalidatesOld | controller/SuperAdminController.js:172-173 | after a resend an earlier code is refused as invalid, and the new code verifies for six hours |
| SuperAdminController.VerifyWithoutRecord | controller/SuperAdminController.js:165-177 | resend and verify on an id that names no record succeed without verifying anything |
| SuperAdminController.ResendToAnyAddress | controller/SuperAdminController.js:165-177 | a resend mails the code to any address the request names, and verifying with that code sets the named record's flag |
| SuperAdminController.LoginSuperAdminComplete | controller/SuperAdminController.js:189-207 | in a valid state, login succeeds exactly when some record has the trimmed email, a matching digest and its flag set |
| SuperAdminController.VerifiedLogsIn | controller/SuperAdminController.js:193-207 | a record whose password matches gets a token if verified, and the not-verified answer otherwise |
| SuperAdminController.RegisteredRecord | controller/SuperAdminController.js:76-128 | registration stores the record last and unverified, with its own challenge first in line and the code mailed to it |
| SuperAdminController.VerifiedRecord | controller/SuperAdminController.js:152-160 | verifying a record's own code sets its flag and changes nothing else about it |
| SuperAdminController.RegisterVerifyLogin | controller/SuperAdminController.js:62-208 | register, then login is refused as unverified; verify with the mailed code within six hours; then the same credentials log in to the verified record |
| SuperAdminController.UpdateCheckIgnores | controller/SuperAdminController.js:231-233 | the update check ignores the password, age, marital status and nationality |
| SuperAdminController.UpdateCheckCoversNames | controller/SuperAdminController.js:231-236 | a body that passes the update check can fail registration only on the password |

## Left out

- Mail transport (the Nodemailer transporter, its start-up check and the mail utilities): network I/O. A send is a `Delivery` input and a `Mail` appended to the outbox.
- Crypto.Compare: bcrypt's salt and cost factor are not modelled, and the digest is taken as collision-free. Real bcrypt reads only the first 72 bytes of the password, so two passwords that share those bytes match each other's digest; the model says distinct texts never compare equal.
- Crypto.Sign: the signing secret, token encoding and `jwt.verify` in the Admin middleware are not modelled. A token is its subject and lifetime.
- Randomness: `Math.random()` floating-point arithmetic is replaced by integer draws over the ranges its `Math.floor` results can take.
- SuperAdminController.SendEmailVerification: the two `Date.now()` reads are collapsed into one `now`, so creation and expiry are exactly six hours apart.
- Save-time schema validation: the `required`, `minlength`, `enum` and `match` validators and the `unique` indexes are not part of the registration transitions. The validators are modelled on their own (`Enums`, `EmailPattern.EmailPathValid`). Uniqueness is modelled only through the handlers' `findOne` check.
- Concurrency: each handler is one atomic step. Requests that interleave at an `await` are not modelled. For example, two registrations of one email can both pass `findOne` before either saves; under such a race, email uniqueness would rest on the `unique` index, which is left out above. The invariant lemmas (`RegisterSuperAdminPreservesValid`, `AdmitPreservesValid`, `OtpSingleUse` and the rest) hold for one request at a time.
- SuperAdminController.VerifyOtp: `updateOne` and `deleteMany` are two separate writes, modelled as one step. A failure between them would leave the record verified with its challenge still stored; that partial outcome is not modelled.
- Store failures: a failing `save`, `findOne` or `updateOne` (including an id that is not a valid ObjectId) is not modelled. Neither are the 500 answers of the catch blocks for those failures.
- SuperAdminController.RegisterSuperAdmin: only the first response is modelled. The second `res.status(200).json(...)` after the mail step, and the header error it causes, are left out.
- SuperAdminController.RegisterUser and SuperAdminController.RegisterAdmin: these handlers have no try/catch, so a store failure there sends no response. That case is not modelled.
- Request values that are not strings (numbers, objects, arrays in the JSON body) are not modelled. Every field is absent or a string.
- Profile fields (street, postcode, age and the rest) are carried as given; `age` is not parsed as a date. The profile-picture upload (Cloudinary, Multer) of `updateSuperAdmin` is left out as a foreign call. The rest of `updateSuperAdmin` after its required-field check is a store update and is left out.
- CRUD passthroughs: `viewAll*`, `viewOne*`, `update*`, `delete*`, the product and order handlers, and the payment and delivery status updates. Each is a single store call.
- `searchEngine`: its behaviour is the store's regular-expression matching.
- Routes and the server: wiring only. The Admin routes import handlers the Admin controller does not export.
- The User controller returns before any logic.
- The product schema and the Admin and User verification schemas hold no behaviour.
- Password change and reset: no such logic exists in the code.
- `getCurrentDateTime` is locale-dependent and unused.

## Findings

| source | as written | input that shows it | evidently intended | confidence | as-written member | corrected member |
|---|---|---|---|---|---|---|
| model/SuperAdminModel.js:40 | the quoted alternative of the local part is `.(".+")`, one arbitrary character followed by a quoted string (the same in model/AdminModel.js:34, model/OrderModel.js:33, model/UserModel.js:40) | `"john"@example.com` is refused and `x"john"@example.com` is accepted | `(".+")`, a bare quoted local part | medium, not executed | EmailPattern.QuotedRejectedAsWritten | EmailPattern.QuotedAccepted |
| model/UserModel.js:40 | the bracketed domain is `\[[0-9]{1,3}\.[0-9]{1,3}\]`, two groups | `a@[192.168.0.1]` is refused and `a@[192.168]` is accepted | four groups, a dotted quad, as in the other three schemas | medium, not executed | EmailPattern.DottedQuadRejectedAsWritten | EmailPattern.DottedQuadAccepted |

The model's corrected validator is `EmailPattern.ValidEmail`; `EmailPattern.EmailPathValid(raw, EmailAsWritten)` is each schema's validator as written. The patterns as written are `EmailPattern.FourGroupAsWritten` and `EmailPattern.TwoGroupAsWritten`. Each schema module records its own pattern as `EmailAsWritten`.

=== FILE: accounts.dfy ===
/**
 * Identity records of the three roles (SuperAdmin, Admin, User) and the
 * collection queries the controllers issue against them: `findOne({ email })`
 * and `updateOne({ _id }, { isVerified: true })`.
 */
module Accounts {
  import opened Wrappers
  import opened Text
  import opened Crypto
  import opened Requests

  /** A record's `_id`. The store hands out fresh ones in increasing order. */
  type Id = nat

  /**
   * The `isVerified` path of a record: absent from the schema (Admin),
   * declared but never set (User), or holding a boolean (SuperAdmin).
   */
  datatype Verification = Undeclared | Unset | Flag(verified: bool)

  /** `!record.isVerified` is false only when the flag holds `true`. */
  predicate IsVerified(v: Verification)
  {
    v == Flag(true)
  }

  /** A stored identity. The password is kept only as its digest. */
  datatype Account = Account(
    id: Id,
    publicId: string,
    firstName: string,
    lastName: string,
    email: string,
    passwordHash: Digest,
    details: Details,
    verification: Verification)

  /** One collection of identity records, in insertion order, with the next fresh `_id`. */
  datatype Directory = Directory(accounts: seq<Account>, nextId: Id)

  /** The empty collection. */
  const EmptyDirectory := Directory([], 0)

  /** The value stored and queried for an email: the schema's `trim` setter applies to both. */
  function EmailKey(email: string): (k: string)
    ensures |k| <= |email|
    ensures |k| > 0 ==> !IsJsWhitespace(k[0]) && !IsJsWhitespace(k[|k| - 1])
    ensures (|email| == 0 || (!IsJsWhitespace(email[0]) && !IsJsWhitespace(email[|email| - 1]))) ==> k == email
  {
    Trim(email)
  }

  /** `findOne({ email })`: the position of the first record with that email. */
  function FindByEmail(accounts: seq<Account>, email: string): (r: Option<nat>)
    ensures r.Some? ==> r.value < |accounts| && accounts[r.value].email == email
    ensures r.Some? ==> forall j :: 0 <= j < r.value ==> accounts[j].email != email
    ensures r.None? <==> forall j :: 0 <= j < |accounts| ==> accounts[j].email != email
  {
    if |accounts| == 0 then None
    else if accounts[0].email == email then Some(0)
    else match FindByEmail(accounts[1..], email)
      case None => None
      case Some(i) => Some(i + 1)
  }

  /** `findOne({ _id })`: the position of the first record with that id. */
  function FindById(accounts: seq<Account>, id: Id): (r: Option<nat>)
    ensures r.Some? ==> r.value < |accounts| && accounts[r.value].id == id
    ensures r.Some? ==> forall j :: 0 <= j < r.value ==> accounts[j].id != id
    ensures r.None? <==> forall j :: 0 <= j < |accounts| ==> accounts[j].id != id
  {
    if |accounts| == 0 then None
    else if accounts[0].id == id then Some(0)
    else match FindById(accounts[1..], id)
      case None => None
      case Some(i) => Some(i + 1)
  }

  /** Whether a registration with this (untrimmed) email finds an existing record. */
  function EmailTaken(d: Directory, email: string): (t: bool)
    ensures !t <==> forall i :: 0 <= i < |d.accounts| ==> d.accounts[i].email != EmailKey(email)
  {
    FindByEmail(d.accounts, EmailKey(email)).Some?
  }

  /**
   * `updateOne({ _id: id }, { isVerified: true })`: the first record with
   * that id gets its flag set; every other record, and every other field,
   * stays as it was; an id that names no record changes nothing.
   */
  function SetVerified(accounts: seq<Account>, id: Id): (r: seq<Account>)
    ensures |r| == |accounts|
    ensures forall i :: 0 <= i < |r| ==> r[i] == accounts[i].(verification := r[i].verification)
    ensures forall i :: 0 <= i < |r| && accounts[i].id != id ==> r[i] == accounts[i]
    ensures FindById(accounts, id).None? ==> r == accounts
    ensures FindById(accounts, id).Some? ==> IsVerified(r[FindById(accounts, id).value].verification)
  {
    match FindById(accounts, id)
    case None => accounts
    case Some(i) => accounts[i := accounts[i].(verification := Flag(true))]
  }

  /**
   * The invariant the controllers keep for each collection: every id was
   * handed out before `nextId`, and no two records share an id or an email.
   */
  ghost predicate Valid(d: Directory)
  {
    && (forall i :: 0 <= i < |d.accounts| ==> d.accounts[i].id < d.nextId)
    && (forall i, j :: 0 <= i < j < |d.accounts| ==> d.accounts[i].id != d.accounts[j].id)
    && (forall i, j :: 0 <= i < j < |d.accounts| ==> d.accounts[i].email != d.accounts[j].email)
  }

  /** In a valid collection the record `findOne({ email })` returns is the only one with that email. */
  lemma FindByEmailUnique(d: Directory, email: string, i: nat)
    requires Valid(d)
    requires i < |d.accounts| && d.accounts[i].email == email
    ensures FindByEmail(d.accounts, email) == Some(i)
  {
  }

  /** Appending a record under the next id, with an email no record has, keeps a collection valid. */
  lemma AppendPreservesValid(d: Directory, a: Account, d': Directory)
    requires Valid(d) && a.id == d.nextId
    requires forall j :: 0 <= j < |d.accounts| ==> d.accounts[j].email != a.email
    requires d' == Directory(d.accounts + [a], d.nextId + 1)
    ensures Valid(d')
  {
  }

  /** Setting a flag keeps a collection valid: ids and emails are untouched. */
  lemma SetVerifiedPreservesValid(d: Directory, id: Id)
    requires Valid(d)
    ensures Valid(Directory(SetVerified(d.accounts, id), d.nextId))
  {
    var r := SetVerified(d.accounts, id);
    assert forall i :: 0 <= i < |r| ==> r[i].id == d.accounts[i].id && r[i].email == d.accounts[i].email;
  }
}

=== FILE: admin_controller.dfy ===
/**
 * The Admin handlers: registration into the Admin collection and a login
 * with no verification gate (the Admin schema has no `isVerified` path).
 * The SuperAdmin controller's own `registerAdmin` is the same handler on
 * the same collection, and is modelled by `RegisterAdmin` too.
 */
module AdminController {
  import opened Wrappers
  import opened Text
  import opened Crypto
  import opened Requests
  import opened Accounts
  import opened Auth
  import opened Responses
  import Identifiers
  import AdminModel

  /**
   * `registerAdmin`: the shared validation and duplicate check, then a new
   * record whose `isVerified` path does not exist, answered with the record.
   */
  function RegisterAdmin(d: Directory, form: Form, draw: Identifiers.IdDraw): (r: Outcome)
    ensures RegistrationError(form).Some? ==>
      r == Outcome(d, BadRequest(RegistrationError(form).value))
    ensures RegistrationError(form).None? && EmailTaken(d, form.email.value) ==>
      r == Outcome(d, BadRequest(EmailInUse))
    ensures r.response.status == 200 <==> RegistrationError(form).None? && !EmailTaken(d, form.email.value)
    ensures r.response.status != 200 ==> r.response.status == 400 && r.directory == d
    ensures r.response.status == 200 ==>
      && r.response.body.Record?
      && var a := r.response.body.account;
      && r.directory == Directory(d.accounts + [a], d.nextId + 1)
      && a.id == d.nextId
      && a.publicId == AdminModel.GenerateId(draw)
      && a.firstName == form.firstName.value && a.lastName == form.lastName.value && a.details == form.details
      && a.email == EmailKey(form.email.value)
      && Compare(form.password.value, a.passwordHash)
      && a.verification == Undeclared
  {
    match Admit(d, form, AdminModel.GenerateId(draw), AdminModel.ResolveIsVerified(None))
    case Refused(reason) => Outcome(d, BadRequest(reason))
    case Admitted(d', account) => Outcome(d', Response(200, Record(account)))
  }

  /** `loginAdmin`: the shared credential check, then a one-hour token for the record found. */
  function LoginAdmin(d: Directory, email: Field, password: Field): (r: Response)
    ensures !Truthy(email) ==> r == BadRequest(EmailMissing)
    ensures Truthy(email) && !Truthy(password) ==> r == BadRequest(PasswordMissing)
    ensures CheckCredentials(d, email, password).Mismatch? ==> r == BadRequest(InvalidCredentials)
    ensures r.status == 200 <==> CheckCredentials(d, email, password).Match?
    ensures r.status != 200 ==> r.status == 400 && r.body.JsonString?
    ensures r.status == 200 ==>
      var a := CheckCredentials(d, email, password).account;
      r.body == Session(Sign(a.id), a) && r.body.token.expiresIn == OneHour
  {
    match CheckCredentials(d, email, password)
    case Incomplete(reason) => BadRequest(reason)
    case Mismatch => BadRequest(InvalidCredentials)
    case Match(a) => Response(200, Session(Sign(a.id), a))
  }

  /**
   * In a valid collection an admin logs in exactly when some record has the
   * trimmed email and a digest of the password; no verification state is
   * consulted.
   */
  lemma LoginAdminComplete(d: Directory, email: string, password: string)
    requires Valid(d)
    requires |email| > 0 && |password| > 0
    ensures LoginAdmin(d, Str(email), Str(password)).status == 200 <==>
      (exists i :: 0 <= i < |d.accounts| && d.accounts[i].email == EmailKey(email)
        && Compare(password, d.accounts[i].passwordHash))
  {
    CheckCredentialsComplete(d, email, password);
  }

  /** An unknown email and a wrong password are answered identically. */
  lemma LoginAdminHidesCause(d: Directory, email: string, password: string, i: nat)
    requires Valid(d) && |email| > 0 && |password| > 0
    requires i < |d.accounts| && d.accounts[i].email == EmailKey(email)
    requires !Compare(password, d.accounts[i].passwordHash)
    ensures LoginAdmin(d, Str(email), Str(password)) == LoginAdmin(Directory([], d.nextId), Str(email), Str(password))
    ensures LoginAdmin(d, Str(email), Str(password)) == BadRequest(InvalidCredentials)
  {
    FindByEmailUnique(d, EmailKey(email), i);
  }

  /** Registration keeps the collection valid. */
  lemma RegisterAdminPreservesValid(d: Directory, form: Form, draw: Identifiers.IdDraw)
    requires Valid(d)
    ensures Valid(RegisterAdmin(d, form, draw).directory)
  {
    AdmitPreservesValid(d, form, AdminModel.GenerateId(draw), Undeclared);
  }

  /** A freshly registered admin can log in at once with the same email and password. */
  lemma RegisterThenLogin(d: Directory, form: Form, draw: Identifiers.IdDraw)
    requires Valid(d)
    requires RegisterAdmin(d, form, draw).response.status == 200
    ensures var r := RegisterAdmin(d, form, draw);
      LoginAdmin(r.directory, form.email, form.password)
        == Response(200, Session(Sign(d.nextId), r.response.body.account))
  {
    AdmitThenCredentialsMatch(d, form, AdminModel.GenerateId(draw), Undeclared);
  }
}

=== FILE: admin_model.dfy ===
/**
 * The Admin schema's own logic: its public id default and its email
 * validator. The schema declares no `isVerified` path.
 */
module AdminModel {
  import opened Wrappers
  import opened Text
  import Identifiers
  import opened EmailPattern
  import opened Accounts

  const IdPrefix := 'A'

  /** `generateUniqueAdminId`: "A", two random capitals, five random digits. */
  function GenerateId(draw: Identifiers.IdDraw): (id: string)
    ensures |id| == 8 && id[0] == 'A'
    ensures IsUpper(id[1]) && IsUpper(id[2]) && AllDigits(id[3..])
    ensures Identifiers.Parse(IdPrefix, id) == Some(draw)
  {
    Identifiers.ParseGenerate(IdPrefix, draw);
    Identifiers.Generate(IdPrefix, draw)
  }

  /** The pattern the `email` path's `match` validator is written with: `EmailPathValid(raw, EmailAsWritten)` is the path as written, `ValidEmail` the corrected one. */
  const EmailAsWritten := FourGroupAsWritten

  /** A path the schema does not declare is dropped on save, whatever the body held. */
  function ResolveIsVerified(v: Option<bool>): (r: Verification)
    ensures r.Undeclared? && !IsVerified(r)
  {
    Undeclared
  }
}

=== FILE: auth.dfy ===
/**
 * The logic the registration and login handlers of all three roles share:
 * the ordered validation of a registration body, the duplicate-email check
 * and the stored record, and the credential check of a login.
 */
module Auth {
  import opened Wrappers
  import opened Text
  import opened Crypto
  import opened Requests
  import opened Accounts

  const FirstNameMissing := "Please enter your first name"
  const LastNameMissing := "Please enter your last name"
  const EmailMissing := "Please enter your email address"
  const PasswordMissing := "Please enter your password"
  const PasswordTooShort := "Password must be at least 6 characters"
  const EmailInUse := "Email already in use"
  const InvalidCredentials := "Invalid email or password"

  /** The shortest password registration accepts, in UTF-16 code units. */
  const MinPasswordLength := 6

  /**
   * The first failing check of a registration body, in the handlers' order:
   * first name, last name, email, password present, then password length.
   */
  function RegistrationError(form: Form): (r: Option<string>)
    ensures r == Some(FirstNameMissing) <==> !Truthy(form.firstName)
    ensures r == Some(LastNameMissing) <==> Truthy(form.firstName) && !Truthy(form.lastName)
    ensures r == Some(EmailMissing) <==>
      Truthy(form.firstName) && Truthy(form.lastName) && !Truthy(form.email)
    ensures r == Some(PasswordMissing) <==>
      Truthy(form.firstName) && Truthy(form.lastName) && Truthy(form.email) && !Truthy(form.password)
    ensures r == Some(PasswordTooShort) <==>
      && Truthy(form.firstName) && Truthy(form.lastName) && Truthy(form.email) && Truthy(form.password)
      && Utf16Length(form.password.value) < MinPasswordLength
    ensures r.None? <==>
      && Truthy(form.firstName) && Truthy(form.lastName) && Truthy(form.email) && Truthy(form.password)
      && Utf16Length(form.password.value) >= MinPasswordLength
  {
    if !Truthy(form.firstName) then Some(FirstNameMissing)
    else if !Truthy(form.lastName) then Some(LastNameMissing)
    else if !Truthy(form.email) then Some(EmailMissing)
    else if !Truthy(form.password) then Some(PasswordMissing)
    else if Utf16Length(form.password.value) < MinPasswordLength then Some(PasswordTooShort)
    else None
  }

  /** Registration validation looks only at name, email and password: no profile field can fail it. */
  lemma RegistrationErrorIgnoresDetails(form: Form, details: Details)
    ensures RegistrationError(form.(details := details)) == RegistrationError(form)
  {
  }

  /** The outcome of registering up to the save: refused with a message, or stored. */
  datatype Admission = Refused(reason: string) | Admitted(directory: Directory, account: Account)

  /**
   * Validate, reject a duplicate email, then store a new record holding the
   * digest of the password (never the password) and the given verification
   * state, under the next fresh id.
   */
  function Admit(d: Directory, form: Form, publicId: string, verification: Verification): (r: Admission)
    ensures RegistrationError(form).Some? ==> r == Refused(RegistrationError(form).value)
    ensures RegistrationError(form).None? && EmailTaken(d, form.email.value) ==> r == Refused(EmailInUse)
    ensures r.Admitted? <==> RegistrationError(form).None? && !EmailTaken(d, form.email.value)
    ensures r.Admitted? ==>
      && r.directory.accounts == d.accounts + [r.account]
      && r.directory.nextId == d.nextId + 1
      && r.account.id == d.nextId
      && r.account.publicId == publicId
      && r.account.firstName == form.firstName.value
      && r.account.lastName == form.lastName.value
      && r.account.email == EmailKey(form.email.value)
      && Compare(form.password.value, r.account.passwordHash)
      && r.account.details == form.details
      && r.account.verification == verification
  {
    match RegistrationError(form)
    case Some(reason) => Refused(reason)
    case None =>
      if EmailTaken(d, form.email.value) then Refused(EmailInUse)
      else
        var account := Account(
          d.nextId, publicId, form.firstName.value, form.lastName.value,
          EmailKey(form.email.value), Hash(form.password.value), form.details, verification);
        Admitted(Directory(d.accounts + [account], d.nextId + 1), account)
  }

  /** Storing a new record keeps ids and emails unique. */
  lemma AdmitPreservesValid(d: Directory, form: Form, publicId: string, verification: Verification)
    requires Valid(d)
    ensures Admit(d, form, publicId, verification).Admitted? ==>
      Valid(Admit(d, form, publicId, verification).directory)
  {
    var r := Admit(d, form, publicId, verification);
    if r.Admitted? {
      var a := r.account;
      assert r.directory == Directory(d.accounts + [a], d.nextId + 1);
      AppendPreservesValid(d, a, r.directory);
    }
  }

  /** Once an email is registered, registering it again (even with other surrounding whitespace) is refused. */
  lemma {:induction false} AdmitRejectsDuplicate(
    d: Directory, form: Form, publicId: string, verification: Verification,
    again: Form, publicId': string, verification': Verification)
    requires Admit(d, form, publicId, verification).Admitted?
    requires RegistrationError(again).None?
    requires EmailKey(again.email.value) == EmailKey(form.email.value)
    ensures Admit(Admit(d, form, publicId, verification).directory, again, publicId', verification')
      == Refused(EmailInUse)
  {
    var r := Admit(d, form, publicId, verification);
    var accounts := r.directory.accounts;
    assert accounts[|accounts| - 1].email == EmailKey(again.email.value);
  }

  /** What a login learns about the supplied credentials. */
  datatype Credentials = Incomplete(reason: string) | Mismatch | Match(account: Account)

  /**
   * The shared prefix of both login handlers: email, then password present;
   * then `findOne({ email })` and `bcrypt.compare`. An unknown email and a
   * wrong password are indistinguishable.
   */
  function CheckCredentials(d: Directory, email: Field, password: Field): (r: Credentials)
    ensures !Truthy(email) ==> r == Incomplete(EmailMissing)
    ensures Truthy(email) && !Truthy(password) ==> r == Incomplete(PasswordMissing)
    ensures r.Incomplete? <==> !Truthy(email) || !Truthy(password)
    ensures r.Match? ==>
      && FindByEmail(d.accounts, EmailKey(email.value)).Some?
      && r.account == d.accounts[FindByEmail(d.accounts, EmailKey(email.value)).value]
      && r.account.email == EmailKey(email.value)
      && r.account in d.accounts
      && Compare(password.value, r.account.passwordHash)
    ensures Truthy(email) && Truthy(password) && FindByEmail(d.accounts, EmailKey(email.value)).None? ==> r == Mismatch
    ensures Truthy(email) && Truthy(password) && FindByEmail(d.accounts, EmailKey(email.value)).Some? ==>
      (r.Match? <==> Compare(password.value, d.accounts[FindByEmail(d.accounts, EmailKey(email.value)).value].passwordHash))
  {
    if !Truthy(email) then Incomplete(EmailMissing)
    else if !Truthy(password) then Incomplete(PasswordMissing)
    else match FindByEmail(d.accounts, EmailKey(email.value))
      case None => Mismatch
      case Some(i) =>
        var account := d.accounts[i];
        if Compare(password.value, account.passwordHash) then Match(account) else Mismatch
  }

  /**
   * In a valid collection the credentials match exactly when some record has
   * the (trimmed) email and a digest of the supplied password.
   */
  lemma CheckCredentialsComplete(d: Directory, email: string, password: string)
    requires Valid(d)
    requires |email| > 0 && |password| > 0
    ensures CheckCredentials(d, Str(email), Str(password)).Match? <==>
      (exists i :: 0 <= i < |d.accounts| && d.accounts[i].email == EmailKey(email)
        && Compare(password, d.accounts[i].passwordHash))
  {
    CredentialsMatchSound(d, email, password);
    if i :| (0 <= i < |d.accounts| && d.accounts[i].email == EmailKey(email)
        && Compare(password, d.accounts[i].passwordHash)) {
      CredentialsMatchComplete(d, email, password, i);
    }
  }

  /** A match is a record with the trimmed email and a digest of the password. */
  lemma CredentialsMatchSound(d: Directory, email: string, password: string)
    requires |email| > 0 && |password| > 0
    ensures CheckCredentials(d, Str(email), Str(password)).Match? ==>
      (exists i :: 0 <= i < |d.accounts| && d.accounts[i].email == EmailKey(email)
        && Compare(password, d.accounts[i].passwordHash))
  {
    var found := FindByEmail(d.accounts, EmailKey(email));
    if found.Some? {
      var k := found.value;
      assert d.accounts[k].email == EmailKey(email);
    }
  }

  /** In a valid collection, a record with the trimmed email and a digest of the password is a match. */
  lemma CredentialsMatchComplete(d: Directory, email: string, password: string, i: nat)
    requires Valid(d) && |email| > 0 && |password| > 0
    requires i < |d.accounts| && d.accounts[i].email == EmailKey(email)
    requires Compare(password, d.accounts[i].passwordHash)
    ensures CheckCredentials(d, Str(email), Str(password)).Match?
  {
    FindByEmailUnique(d, EmailKey(email), i);
  }

  /** After registering, the same email (trimmed or not) and password log in to the new record. */
  lemma AdmitThenCredentialsMatch(d: Directory, form: Form, publicId: string, verification: Verification)
    requires Valid(d)
    requires Admit(d, form, publicId, verification).Admitted?
    ensures var r := Admit(d, form, publicId, verification);
      CheckCredentials(r.directory, form.email, form.password) == Match(r.account)
  {
    var r := Admit(d, form, publicId, verification);
    AdmitPreservesValid(d, form, publicId, verification);
    FindByEmailUnique(r.directory, r.account.email, |d.accounts|);
  }
}

=== FILE: crypto.dfy ===
/**
 * The two cryptographic collaborators of the controllers, kept abstract.
 * `bcrypt.hash` yields a digest whose only observation is `bcrypt.compare`;
 * the model idealises it as a collision-free one-way function (salt and
 * cost factor do not affect `compare`, so they are not represented).
 * `jwt.sign` yields a token naming a subject and a lifetime; the signing
 * secret is a process-wide constant and is not represented.
 */
module Crypto {

  /** A bcrypt digest. Nothing but `Compare` looks inside it. */
  datatype Digest = Bcrypt(secret: string)

  /** `bcrypt.hash(plain, 10)`. */
  function Hash(plain: string): Digest
  {
    Bcrypt(plain)
  }

  /** `bcrypt.compare(plain, digest)`. */
  predicate Compare(plain: string, digest: Digest)
  {
    digest.secret == plain
  }

  /** A hash always compares equal to the text it was made from, and to nothing else. */
  lemma CompareHash(plain: string, other: string)
    ensures Compare(plain, Hash(plain))
    ensures Compare(other, Hash(plain)) <==> other == plain
  {
  }

  /** One hour, the `expiresIn: "1h"` every login token is signed with, in seconds. */
  const OneHour: nat := 3600

  /** A signed JSON Web Token with payload `{ id: subject }`. */
  datatype Token = Token(subject: nat, expiresIn: nat)

  /** `jwt.sign({ id }, secret, { expiresIn: "1h" })`. */
  function Sign(id: nat): (t: Token)
    ensures t.subject == id && t.expiresIn == 60 * 60
  {
    Token(id, OneHour)
  }
}

=== FILE: email_pattern.dfy ===
/**
 * The email `match` validator the identity and order schemas declare:
 *
 *   local  := dot-atom | LEAD '"' .+ '"'
 *   domain := '[' g '.' g ... ']'  (a fixed number of 1-3 digit groups)
 *           | (label '.')+ tld      (labels of [A-Za-z0-9-], tld of 2+ letters)
 *
 * where LEAD is the single `.` the pattern puts before the quoted form.
 * Each schema's pattern is a `Pattern` value. The grammar is stated twice:
 * as the regular expression reads (`...Form`, existential over the pieces)
 * and as a recognizer that splits on '@' and '.' (`Is...`, `Matches`);
 * the lemmas below prove the two agree on every string.
 */
module EmailPattern {
  import opened Wrappers
  import opened Text

  /** How many dot-separated groups a bracketed address literal has. */
  type GroupCount = n: nat | n >= 1 witness 1

  /** One schema's pattern: whether the quoted local part needs a lead character, and the bracket group count. */
  datatype Pattern = Pattern(leadBeforeQuote: bool, bracketGroups: GroupCount)

  /** The characters of the class `[^<>()[\]\\.,;:\s@"]`. */
  predicate IsAtomChar(c: char)
  {
    c !in "<>()[]\\.,;:@\"" && !IsJsWhitespace(c)
  }

  predicate IsAtom(a: string)
  {
    |a| >= 1 && forall i :: 0 <= i < |a| ==> IsAtomChar(a[i])
  }

  /** The characters of the class `[a-zA-Z\-0-9]`. */
  predicate IsHostChar(c: char)
  {
    IsAsciiLetter(c) || IsDigit(c) || c == '-'
  }

  predicate IsLabel(l: string)
  {
    |l| >= 1 && forall i :: 0 <= i < |l| ==> IsHostChar(l[i])
  }

  /** `[a-zA-Z]{2,}`. */
  predicate IsTld(t: string)
  {
    |t| >= 2 && forall i :: 0 <= i < |t| ==> IsAsciiLetter(t[i])
  }

  /** `[0-9]{1,3}`. */
  predicate IsDigitGroup(g: string)
  {
    1 <= |g| <= 3 && AllDigits(g)
  }

  /**
   * What a lone `.` matches in a pattern without the `u` flag: one UTF-16
   * code unit other than a line terminator. A character beyond U+FFFF is
   * two code units, so it cannot be matched by one `.`.
   */
  predicate IsSingleUnitDot(c: char)
  {
    c as int < 0x1_0000 && !IsLineTerminator(c)
  }

  /** `".+"`: a quoted string of at least one character, with no line terminator inside. */
  predicate IsQuoted(l: string)
  {
    && |l| >= 3 && l[0] == '"' && l[|l| - 1] == '"'
    && forall i :: 1 <= i < |l| - 1 ==> !IsLineTerminator(l[i])
  }

  /** The quoted alternative of the local part, with or without the lead character. */
  predicate IsQuotedLocal(l: string, p: Pattern)
  {
    if p.leadBeforeQuote then |l| >= 1 && IsSingleUnitDot(l[0]) && IsQuoted(l[1..])
    else IsQuoted(l)
  }

  /** `label '.'` repeated: each label followed by its dot. */
  function Dotted(labels: seq<string>): string
  {
    if |labels| == 0 then [] else labels[0] + "." + Dotted(labels[1..])
  }

  // ---- The grammar as the regular expression reads it ----

  /** `atom ('.' atom)*`. */
  ghost predicate DotAtomForm(l: string)
  {
    exists atoms: seq<string> ::
      && |atoms| >= 1
      && (forall i :: 0 <= i < |atoms| ==> IsAtom(atoms[i]))
      && Join(atoms, '.') == l
  }

  ghost predicate LocalForm(l: string, p: Pattern)
  {
    DotAtomForm(l) || IsQuotedLocal(l, p)
  }

  /** `'[' group ('.' group){n-1} ']'`. */
  ghost predicate BracketForm(d: string, n: GroupCount)
  {
    exists groups: seq<string> ::
      && |groups| == n
      && (forall i :: 0 <= i < |groups| ==> IsDigitGroup(groups[i]))
      && d == "[" + Join(groups, '.') + "]"
  }

  /** `(label '.')+ tld`. */
  ghost predicate HostForm(d: string)
  {
    exists labels: seq<string> ::
      && |labels| >= 1
      && (forall i :: 0 <= i < |labels| ==> IsLabel(labels[i]))
      && Dotted(labels) <= d
      && IsTld(d[|Dotted(labels)|..])
  }

  ghost predicate DomainForm(d: string, p: Pattern)
  {
    BracketForm(d, p.bracketGroups) || HostForm(d)
  }

  /** `^local@domain$`, for some position of the '@'. */
  ghost predicate AddressForm(s: string, p: Pattern)
  {
    exists k :: 0 <= k < |s| && s[k] == '@' && LocalForm(s[..k], p) && DomainForm(s[k + 1..], p)
  }

  // ---- The recognizer ----

  predicate IsDotAtom(l: string)
  {
    var atoms := Split(l, '.');
    forall i :: 0 <= i < |atoms| ==> IsAtom(atoms[i])
  }

  predicate IsLocal(l: string, p: Pattern)
  {
    IsDotAtom(l) || IsQuotedLocal(l, p)
  }

  predicate IsBracket(d: string, n: GroupCount)
  {
    && 2 <= |d| && d[0] == '[' && d[|d| - 1] == ']'
    && var groups := Split(d[1..|d| - 1], '.');
      |groups| == n && forall i :: 0 <= i < |groups| ==> IsDigitGroup(groups[i])
  }

  predicate IsHost(d: string)
  {
    var parts := Split(d, '.');
    && |parts| >= 2
    && (forall i :: 0 <= i < |parts| - 1 ==> IsLabel(parts[i]))
    && IsTld(parts[|parts| - 1])
  }

  predicate IsDomain(d: string, p: Pattern)
  {
    IsBracket(d, p.bracketGroups) || IsHost(d)
  }

  /** The position of the last occurrence of `c`. */
  function LastIndexOf(s: string, c: char): (r: Option<nat>)
    ensures r.None? <==> c !in s
    ensures r.Some? ==> r.value < |s| && s[r.value] == c && c !in s[r.value + 1..]
  {
    if |s| == 0 then None
    else if s[|s| - 1] == c then Some(|s| - 1)
    else
      var r := LastIndexOf(s[..|s| - 1], c);
      assert s == s[..|s| - 1] + [s[|s| - 1]];
      if r.Some? then
        assert s[r.value + 1..] == s[..|s| - 1][r.value + 1..] + [s[|s| - 1]];
        r
      else r
  }

  /** The recognizer: split at the last '@'; the part before is a local part, the part after a domain. */
  function Matches(s: string, p: Pattern): (m: bool)
    ensures m ==> '@' in s && |s| >= 3 && (IsAsciiLetter(s[|s| - 1]) || s[|s| - 1] == ']')
  {
    match LastIndexOf(s, '@')
    case None => false
    case Some(k) =>
      DomainEnds(s[k + 1..], p);
      IsLocal(s[..k], p) && IsDomain(s[k + 1..], p)
  }

  /** A domain ends in a letter (a top-level domain) or a ']' (a bracket literal). */
  lemma DomainEnds(d: string, p: Pattern)
    ensures IsDomain(d, p) ==> |d| >= 2 && (IsAsciiLetter(d[|d| - 1]) || d[|d| - 1] == ']')
  {
    if IsHost(d) {
      HostShape(d);
    }
  }

  /** The schema validator: the `trim` setter runs before the `match` validator. */
  function Accepts(raw: string, p: Pattern): (a: bool)
    ensures a <==> AddressForm(Trim(raw), p)
  {
    MatchesCorrect(Trim(raw), p);
    Matches(Trim(raw), p)
  }

  // ---- The two readings agree ----

  lemma DotAtomCorrect(l: string)
    ensures IsDotAtom(l) <==> DotAtomForm(l)
  {
    if IsDotAtom(l) {
      assert Join(Split(l, '.'), '.') == l;
    }
    if DotAtomForm(l) {
      var atoms :| |atoms| >= 1 && (forall i :: 0 <= i < |atoms| ==> IsAtom(atoms[i])) && Join(atoms, '.') == l;
      forall i | 0 <= i < |atoms|
        ensures '.' !in atoms[i]
      {
        assert forall j :: 0 <= j < |atoms[i]| ==> IsAtomChar(atoms[i][j]);
      }
      SplitJoin(atoms, '.');
    }
  }

  lemma LocalCorrect(l: string, p: Pattern)
    ensures IsLocal(l, p) <==> LocalForm(l, p)
  {
    DotAtomCorrect(l);
  }

  lemma BracketCorrect(d: string, n: GroupCount)
    ensures IsBracket(d, n) <==> BracketForm(d, n)
  {
    if IsBracket(d, n) {
      var inner := d[1..|d| - 1];
      var groups := Split(inner, '.');
      assert d == "[" + Join(groups, '.') + "]";
    }
    if BracketForm(d, n) {
      var groups :| && |groups| == n
        && (forall i :: 0 <= i < |groups| ==> IsDigitGroup(groups[i]))
        && d == "[" + Join(groups, '.') + "]";
      assert d[1..|d| - 1] == Join(groups, '.');
      forall i | 0 <= i < |groups|
        ensures '.' !in groups[i]
      {
        assert forall j :: 0 <= j < |groups[i]| ==> IsDigit(groups[i][j]);
      }
      SplitJoin(groups, '.');
    }
  }

  /** The labels, each with its dot, followed by the top-level domain, is a dot-join. */
  lemma {:induction false} DottedJoin(labels: seq<string>, tld: string)
    ensures Dotted(labels) + tld == Join(labels + [tld], '.')
    decreases |labels|
  {
    if |labels| > 0 {
      DottedJoin(labels[1..], tld);
      assert (labels + [tld])[1..] == labels[1..] + [tld];
      assert labels[0] + "." + Dotted(labels[1..]) + tld == labels[0] + ['.'] + (Dotted(labels[1..]) + tld);
    } else {
      assert labels + [tld] == [tld];
    }
  }

  /** Labels and a top-level domain hold no dot. */
  lemma HostPartsDotFree(labels: seq<string>, tld: string)
    requires forall i :: 0 <= i < |labels| ==> IsLabel(labels[i])
    requires IsTld(tld)
    ensures forall i :: 0 <= i < |labels + [tld]| ==> '.' !in (labels + [tld])[i]
  {
    var parts := labels + [tld];
    forall i | 0 <= i < |parts|
      ensures '.' !in parts[i]
    {
      if i < |labels| {
        assert parts[i] == labels[i];
        assert forall j :: 0 <= j < |labels[i]| ==> IsHostChar(labels[i][j]);
      } else {
        assert parts[i] == tld;
        assert forall j :: 0 <= j < |tld| ==> IsAsciiLetter(tld[j]);
      }
    }
  }

  lemma HostSound(d: string)
    requires IsHost(d)
    ensures HostForm(d)
  {
    var parts := Split(d, '.');
    var labels := parts[..|parts| - 1];
    var tld := parts[|parts| - 1];
    assert labels + [tld] == parts;
    DottedJoin(labels, tld);
    assert Dotted(labels) + tld == d;
    assert d[|Dotted(labels)|..] == tld;
    assert forall i :: 0 <= i < |labels| ==> IsLabel(labels[i]);
  }

  lemma HostComplete(d: string)
    requires HostForm(d)
    ensures IsHost(d)
  {
    var labels :| && |labels| >= 1
      && (forall i :: 0 <= i < |labels| ==> IsLabel(labels[i]))
      && Dotted(labels) <= d
      && IsTld(d[|Dotted(labels)|..]);
    var tld := d[|Dotted(labels)|..];
    var parts := labels + [tld];
    assert d == Dotted(labels) + tld;
    DottedJoin(labels, tld);
    HostPartsDotFree(labels, tld);
    SplitJoin(parts, '.');
    assert forall i :: 0 <= i < |parts| - 1 ==> parts[i] == labels[i];
  }

  lemma HostCorrect(d: string)
    ensures IsHost(d) <==> HostForm(d)
  {
    if IsHost(d) {
      HostSound(d);
    }
    if HostForm(d) {
      HostComplete(d);
    }
  }

  lemma DomainCorrect(d: string, p: Pattern)
    ensures IsDomain(d, p) <==> DomainForm(d, p)
  {
    BracketCorrect(d, p.bracketGroups);
    HostCorrect(d);
  }

  /** A domain contains no '@', which is why the split point is the last '@'. */
  lemma DomainHasNoAt(d: string, p: Pattern)
    requires IsDomain(d, p)
    ensures '@' !in d
  {
    if IsBracket(d, p.bracketGroups) {
      var inner := d[1..|d| - 1];
      var groups := Split(inner, '.');
      forall i | 0 <= i < |groups|
        ensures '@' !in groups[i]
      {
        assert forall j :: 0 <= j < |groups[i]| ==> IsDigit(groups[i][j]);
      }
      JoinAvoids(groups, '.', '@');
      assert d == [d[0]] + inner + [d[|d| - 1]];
    } else {
      var parts := Split(d, '.');
      forall i | 0 <= i < |parts|
        ensures '@' !in parts[i]
      {
        if i < |parts| - 1 {
          assert forall j :: 0 <= j < |parts[i]| ==> IsHostChar(parts[i][j]);
        } else {
          assert forall j :: 0 <= j < |parts[i]| ==> IsAsciiLetter(parts[i][j]);
        }
      }
      JoinAvoids(parts, '.', '@');
    }
  }

  lemma NoneAfter(s: string, k: nat, c: char)
    requires k < |s| && c !in s[k + 1..]
    ensures forall i :: k < i < |s| ==> s[i] != c
  {
    forall i | k < i < |s|
      ensures s[i] != c
    {
      assert s[i] == s[k + 1..][i - k - 1];
    }
  }

  /** An '@' with none after it is the one `LastIndexOf` finds. */
  lemma LastAt(s: string, k: nat)
    requires k < |s| && s[k] == '@' && '@' !in s[k + 1..]
    ensures LastIndexOf(s, '@') == Some(k)
  {
    var j := LastIndexOf(s, '@').value;
    NoneAfter(s, j, '@');
    NoneAfter(s, k, '@');
  }

  lemma MatchesSound(s: string, p: Pattern)
    requires Matches(s, p)
    ensures AddressForm(s, p)
  {
    var k := LastIndexOf(s, '@').value;
    LocalCorrect(s[..k], p);
    DomainCorrect(s[k + 1..], p);
  }

  /** The two halves of the grammar pass the recognizer's checks, and the domain holds no '@'. */
  lemma FormsRecognized(l: string, d: string, p: Pattern)
    requires LocalForm(l, p) && DomainForm(d, p)
    ensures IsLocal(l, p) && IsDomain(d, p) && '@' !in d
  {
    LocalCorrect(l, p);
    DomainCorrect(d, p);
    DomainHasNoAt(d, p);
  }

  /** A split at an '@' with no '@' after it, into two recognized halves, is a match. */
  lemma MatchesAtSplit(s: string, k: nat, p: Pattern)
    requires k < |s| && s[k] == '@' && '@' !in s[k + 1..]
    requires IsLocal(s[..k], p) && IsDomain(s[k + 1..], p)
    ensures Matches(s, p)
  {
    LastAt(s, k);
  }

  lemma MatchesComplete(s: string, p: Pattern)
    requires AddressForm(s, p)
    ensures Matches(s, p)
  {
    var k :| 0 <= k < |s| && s[k] == '@' && LocalForm(s[..k], p) && DomainForm(s[k + 1..], p);
    FormsRecognized(s[..k], s[k + 1..], p);
    MatchesAtSplit(s, k, p);
  }

  /** The recognizer accepts exactly the strings the regular expression describes. */
  lemma MatchesCorrect(s: string, p: Pattern)
    ensures Matches(s, p) <==> AddressForm(s, p)
  {
    if Matches(s, p) {
      MatchesSound(s, p);
    }
    if AddressForm(s, p) {
      MatchesComplete(s, p);
    }
  }

  // ---- Shapes the pattern guarantees ----

  /**
   * An unquoted local part neither starts nor ends with '.', never holds
   * "..", and is otherwise made of atom characters.
   */
  lemma DotAtomShape(l: string)
    requires IsDotAtom(l)
    ensures |l| >= 1 && l[0] != '.' && l[|l| - 1] != '.'
    ensures forall i :: 0 <= i < |l| - 1 ==> !(l[i] == '.' && l[i + 1] == '.')
  {
    var atoms := Split(l, '.');
    JoinShape(atoms, '.');
  }

  /** A hostname domain ends in at least two ASCII letters preceded by a '.', after a non-empty label. */
  lemma HostShape(d: string)
    requires IsHost(d)
    ensures |d| >= 4
    ensures IsAsciiLetter(d[|d| - 1]) && IsAsciiLetter(d[|d| - 2])
    ensures '.' in d && IsHostChar(d[0])
  {
    var parts := Split(d, '.');
    var labels := parts[..|parts| - 1];
    var tld := parts[|parts| - 1];
    assert labels + [tld] == parts;
    DottedJoin(labels, tld);
    assert d == Dotted(labels) + tld;
    assert Dotted(labels) == labels[0] + "." + Dotted(labels[1..]);
    assert d[|labels[0]|] == '.';
    assert d[|d| - 2..] == tld[|tld| - 2..];
    assert d[0] == labels[0][0];
    assert IsLabel(labels[0]);
  }
  // ---- The schemas' patterns ----

  /** The pattern as the SuperAdmin, Admin and Order schemas write it: a lead `.` before the quoted form, four bracket groups. */
  const FourGroupAsWritten := Pattern(true, 4)

  /** The pattern as the User schema writes it: the same, with a two-group bracket literal. */
  const TwoGroupAsWritten := Pattern(true, 2)

  /** The pattern the schemas evidently mean: a bare quoted form and a four-group (dotted-quad) bracket literal. */
  const Intended := Pattern(false, 4)

  /** The empty string is no address: every address holds an '@'. */
  lemma EmptyNotAddress(p: Pattern)
    ensures !AddressForm([], p)
  {
  }

  /**
   * The `match` validator on its own: it tests the pattern against the
   * trimmed value, but lets an empty value through untested.
   */
  function MatchValidator(raw: string, p: Pattern): (ok: bool)
    ensures ok <==> Trim(raw) == [] || AddressForm(Trim(raw), p)
  {
    MatchesCorrect(Trim(raw), p);
    Trim(raw) == [] || Accepts(raw, p)
  }

  /**
   * The whole `email` path: the `trim` setter, then `required`, which refuses
   * the empty value, then `match`. Together they accept exactly the trimmed
   * strings of the grammar, empty and whitespace-only input included among
   * the refused.
   */
  function EmailPathValid(raw: string, p: Pattern): (ok: bool)
    ensures ok <==> AddressForm(Trim(raw), p)
    ensures ok ==> |Trim(raw)| > 0 && MatchValidator(raw, p)
  {
    EmptyNotAddress(p);
    |Trim(raw)| > 0 && MatchValidator(raw, p)
  }

  /** Blank input passes `match` alone; only `required` refuses it. */
  lemma BlankPassesMatchOnly(raw: string, p: Pattern)
    requires forall i :: 0 <= i < |raw| ==> IsJsWhitespace(raw[i])
    ensures MatchValidator(raw, p) && !EmailPathValid(raw, p)
  {
  }

  /** With `required` in front, the path is the pattern test on the trimmed value. */
  lemma EmailPathIsPattern(raw: string, p: Pattern)
    ensures EmailPathValid(raw, p) <==> Accepts(raw, p)
  {
  }

  /** The `email` path with the corrected pattern in place of the written one. */
  function ValidEmail(raw: string): (ok: bool)
    ensures ok <==> AddressForm(Trim(raw), Intended)
  {
    EmailPathValid(raw, Intended)
  }

  /** An unquoted address with a hostname domain is accepted by the written and the corrected patterns alike. */
  lemma {:induction false} PlainAddressAccepted(l: string, d: string, p: Pattern)
    requires IsDotAtom(l) && IsHost(d)
    ensures Matches(l + "@" + d, p)
  {
    DomainHasNoAt(d, p);
    MatchesAt(l, d, p);
  }

  /** When the domain holds no '@', the address splits at the '@' before it. */
  lemma MatchesAt(l: string, d: string, p: Pattern)
    requires '@' !in d
    ensures Matches(l + "@" + d, p) <==> IsLocal(l, p) && IsDomain(d, p)
  {
    var s := l + "@" + d;
    assert s[|l|] == '@';
    assert s[|l| + 1..] == d;
    assert s[..|l|] == l;
    LastAt(s, |l|);
  }

  /** A local part in the dot-atom form holds no '"'. */
  lemma DotAtomUnquoted(l: string)
    ensures IsDotAtom(l) ==> '"' !in l
  {
    if IsDotAtom(l) {
      var atoms := Split(l, '.');
      forall i | 0 <= i < |atoms|
        ensures '"' !in atoms[i]
      {
        assert forall j :: 0 <= j < |atoms[i]| ==> IsAtomChar(atoms[i][j]);
      }
      JoinAvoids(atoms, '.', '"');
    }
  }

  // ---- Finding: the lead character before the quoted form ----

  /**
   * As written, a local part that is just a quoted string (whose second
   * character is not itself a quote) fails both alternatives, whatever the
   * domain.
   */
  lemma {:induction false} QuotedRejectedAsWritten(q: string, d: string, p: Pattern)
    requires p.leadBeforeQuote
    requires IsQuoted(q) && q[1] != '"'
    requires IsDomain(d, p)
    ensures !Matches(q + "@" + d, p)
  {
    DomainHasNoAt(d, p);
    MatchesAt(q, d, p);
    DotAtomUnquoted(q);
    assert q[0] in q;
  }

  /** As written, any one character put before a quoted form makes it pass. */
  lemma {:induction false} LeadQuotedAcceptedAsWritten(c: char, q: string, d: string, p: Pattern)
    requires p.leadBeforeQuote
    requires IsSingleUnitDot(c) && IsQuoted(q)
    requires IsDomain(d, p)
    ensures Matches([c] + q + "@" + d, p)
  {
    DomainHasNoAt(d, p);
    MatchesAt([c] + q, d, p);
    assert ([c] + q)[1..] == q;
  }

  /** Corrected: every quoted local part is accepted with every valid domain. */
  lemma {:induction false} QuotedAccepted(q: string, d: string)
    requires IsQuoted(q)
    requires IsDomain(d, Intended)
    ensures Matches(q + "@" + d, Intended)
  {
    DomainHasNoAt(d, Intended);
    MatchesAt(q, d, Intended);
  }

  /** Corrected: a character other than a quote in front of a quoted form is refused. */
  lemma {:induction false} LeadQuotedRejected(c: char, q: string, d: string)
    requires IsQuoted(q) && c != '"'
    requires IsDomain(d, Intended)
    ensures !Matches([c] + q + "@" + d, Intended)
  {
    var l := [c] + q;
    DomainHasNoAt(d, Intended);
    MatchesAt(l, d, Intended);
    DotAtomUnquoted(l);
    assert l[1] in l && l[1] == '"';
  }

  // ---- Finding: the two-group bracket literal ----

  /** The bracketed literal of some digit groups. */
  function BracketLiteral(groups: seq<string>): string
  {
    "[" + Join(groups, '.') + "]"
  }

  lemma BracketEnds(groups: seq<string>)
    ensures var d := BracketLiteral(groups); |d| >= 2 && d[0] == '[' && d[|d| - 1] == ']'
  {
  }

  /** A bracketed literal is never a hostname: '[' is no label character. */
  lemma BracketNotHost(groups: seq<string>)
    ensures !IsHost(BracketLiteral(groups))
  {
    var d := BracketLiteral(groups);
    assert d[0] == '[';
    if IsHost(d) {
      HostShape(d);
    }
  }

  /** A bracketed domain with `n` groups is accepted exactly by the patterns whose bracket has `n` groups. */
  lemma {:induction false} BracketGroupsDecide(groups: seq<string>, p: Pattern)
    requires |groups| >= 1
    requires forall i :: 0 <= i < |groups| ==> IsDigitGroup(groups[i])
    ensures IsDomain(BracketLiteral(groups), p) <==> |groups| == p.bracketGroups
  {
    var d := BracketLiteral(groups);
    BracketNotHost(groups);
    assert d[1..|d| - 1] == Join(groups, '.');
    forall i | 0 <= i < |groups|
      ensures '.' !in groups[i]
    {
      assert forall j :: 0 <= j < |groups[i]| ==> IsDigit(groups[i][j]);
    }
    SplitJoin(groups, '.');
  }

  /** As written in the User schema, a dotted-quad literal is refused and a two-group one accepted. */
  lemma {:induction false} DottedQuadRejectedAsWritten(groups: seq<string>)
    requires |groups| == 4
    requires forall i :: 0 <= i < |groups| ==> IsDigitGroup(groups[i])
    ensures !IsDomain(BracketLiteral(groups), TwoGroupAsWritten)
    ensures IsDomain(BracketLiteral(groups[..2]), TwoGroupAsWritten)
  {
    BracketGroupsDecide(groups, TwoGroupAsWritten);
    BracketGroupsDecide(groups[..2], TwoGroupAsWritten);
  }

  /** Corrected: a bracketed domain is accepted exactly when it is a dotted quad. */
  lemma {:induction false} DottedQuadAccepted(groups: seq<string>)
    requires |groups| >= 1
    requires forall i :: 0 <= i < |groups| ==> IsDigitGroup(groups[i])
    ensures IsDomain(BracketLiteral(groups), Intended) <==> |groups| == 4
  {
    BracketGroupsDecide(groups, Intended);
  }

  // ---- Concrete addresses ----
  //
  // Each example address is spelled as its local part, "@" and its domain
  // joined, the shape the general lemmas above are stated in, so that it
  // follows by instantiating them instead of unfolding the recognizer over
  // a whole literal, which the verifier does only at great cost.

  /** A hostname built from labels and a top-level domain is recognised. */
  lemma HostOf(labels: seq<string>, tld: string)
    requires |labels| >= 1 && forall i :: 0 <= i < |labels| ==> IsLabel(labels[i])
    requires IsTld(tld)
    ensures IsHost(Dotted(labels) + tld)
  {
    var d := Dotted(labels) + tld;
    assert Dotted(labels) <= d;
    assert d[|Dotted(labels)|..] == tld;
    assert HostForm(d);
    HostComplete(d);
  }

  /** An address with no surrounding whitespace is what the validator sees. */
  lemma Untrimmed(s: string, p: Pattern)
    requires |s| > 0 && !IsJsWhitespace(s[0]) && !IsJsWhitespace(s[|s| - 1])
    ensures Accepts(s, p) <==> Matches(s, p)
  {
  }

  /**
   * A domain shorter than four characters, or without a dot, that is not a
   * bracket literal is refused whatever the local part.
   */
  lemma NonHostDomainRejected(l: string, d: string, p: Pattern)
    requires '@' !in d && |d| > 0 && d[0] != '['
    requires |d| < 4 || '.' !in d
    ensures !Matches(l + "@" + d, p)
  {
    MatchesAt(l, d, p);
    if IsHost(d) {
      HostShape(d);
    }
  }

  /** The same refusal seen through the validator, for an address without surrounding whitespace. */
  lemma NonHostAddressRefused(l: string, d: string, p: Pattern)
    requires '@' !in d && |d| > 0 && d[0] != '['
    requires |d| < 4 || '.' !in d
    requires |l| > 0 && !IsJsWhitespace(l[0]) && !IsJsWhitespace(d[|d| - 1])
    ensures !Accepts(l + "@" + d, p)
  {
    var s := l + "@" + d;
    assert s[0] == l[0] && s[|s| - 1] == d[|d| - 1];
    NonHostDomainRejected(l, d, p);
    Untrimmed(s, p);
  }

  /** `a@b.c`: a one-letter top-level domain is refused. */
  lemma ShortTldRefused(p: Pattern)
    ensures !Accepts("a" + "@" + "b.c", p)
  {
    NonHostAddressRefused("a", "b.c", p);
  }

  /** `a@localhost`: a domain without a dot is refused. */
  lemma DotlessRefused(p: Pattern)
    ensures !Accepts("a" + "@" + "localhost", p)
  {
    NonHostAddressRefused("a", "localhost", p);
  }

  /** A one-letter top-level domain, and a domain without a dot, are refused by every pattern. */
  lemma ShortDomainsRejected(p: Pattern)
    ensures !Accepts("a" + "@" + "b.c", p)
    ensures !Accepts("a" + "@" + "localhost", p)
  {
    ShortTldRefused(p);
    DotlessRefused(p);
  }

  lemma ExampleComIsHost(p: Pattern)
    ensures IsDomain("example" + "." + "com", p)
  {
    var labels := ["example"];
    assert labels[1..] == [];
    assert Dotted(labels[1..]) == [];
    assert Dotted(labels) == "example" + ".";
    assert IsLabel(labels[0]);
    HostOf(labels, "com");
  }

  /** The local part and domain of the first finding's address. */
  lemma JohnAtExample(p: Pattern)
    ensures IsQuoted("\"" + "john" + "\"")
    ensures IsDomain("example" + "." + "com", p)
    ensures ("\"" + "john" + "\"")[1] != '"'
  {
    ExampleComIsHost(p);
  }

  /** As written, the bare quoted address `"john"@example.com` is refused. */
  lemma QuotedExampleAsWritten()
    ensures !Accepts("\"" + "john" + "\"" + "@" + ("example" + "." + "com"), FourGroupAsWritten)
  {
    JohnAtExample(FourGroupAsWritten);
    QuotedRejectedAsWritten("\"" + "john" + "\"", "example" + "." + "com", FourGroupAsWritten);
    Untrimmed("\"" + "john" + "\"" + "@" + ("example" + "." + "com"), FourGroupAsWritten);
  }

  /** As written, `x"john"@example.com` is accepted. */
  lemma LeadQuotedExampleAsWritten()
    ensures Accepts(['x'] + ("\"" + "john" + "\"") + "@" + ("example" + "." + "com"), FourGroupAsWritten)
  {
    JohnAtExample(FourGroupAsWritten);
    LeadQuotedAcceptedAsWritten('x', "\"" + "john" + "\"", "example" + "." + "com", FourGroupAsWritten);
    Untrimmed(['x'] + ("\"" + "john" + "\"") + "@" + ("example" + "." + "com"), FourGroupAsWritten);
  }

  /** Corrected, `"john"@example.com` is accepted. */
  lemma QuotedExample()
    ensures Accepts("\"" + "john" + "\"" + "@" + ("example" + "." + "com"), Intended)
  {
    JohnAtExample(Intended);
    QuotedAccepted("\"" + "john" + "\"", "example" + "." + "com");
    Untrimmed("\"" + "john" + "\"" + "@" + ("example" + "." + "com"), Intended);
  }

  lemma QuadGroups()
    ensures forall i :: 0 <= i < 4 ==> IsDigitGroup(["192", "168", "0", "1"][i])
    ensures Join(["192", "168", "0", "1"], '.') == "192" + "." + "168" + "." + "0" + "." + "1"
    ensures ["192", "168", "0", "1"][..2] == ["192", "168"]
    ensures Join(["192", "168"], '.') == "192" + "." + "168"
  {
    assert Join(["0", "1"], '.') == "0" + "." + "1" by {
      assert Join(["1"], '.') == "1";
      assert ["0", "1"][1..] == ["1"];
    }
    assert Join(["168", "0", "1"], '.') == "168" + "." + "0" + "." + "1" by {
      assert ["168", "0", "1"][1..] == ["0", "1"];
    }
    assert ["192", "168", "0", "1"][1..] == ["168", "0", "1"];
    assert ["192", "168"][1..] == ["168"];
  }

  /** With a plain local part, a bracketed address is accepted exactly when its group count is the pattern's. */
  lemma {:induction false} BracketAddressDecide(l: string, groups: seq<string>, p: Pattern)
    requires |groups| >= 1
    requires forall i :: 0 <= i < |groups| ==> IsDigitGroup(groups[i])
    requires IsDotAtom(l) && |l| > 0 && !IsJsWhitespace(l[0])
    ensures Accepts(l + "@" + BracketLiteral(groups), p) <==> |groups| == p.bracketGroups
  {
    var d := BracketLiteral(groups);
    BracketGroupsDecide(groups, p);
    BracketEnds(groups);
    assert '@' !in d by {
      if IsDomain(d, p) {
        DomainHasNoAt(d, p);
      } else {
        var q := Pattern(p.leadBeforeQuote, |groups|);
        BracketGroupsDecide(groups, q);
        DomainHasNoAt(d, q);
      }
    }
    MatchesAt(l, d, p);
    var s := l + "@" + d;
    assert s[0] == l[0] && s[|s| - 1] == d[|d| - 1];
    Untrimmed(s, p);
  }

  /** As written in the User schema, `a@[192.168.0.1]` is refused and `a@[192.168]` accepted. */
  lemma DottedQuadExampleAsWritten()
    ensures !Accepts("a" + "@" + BracketLiteral(["192", "168", "0", "1"]), TwoGroupAsWritten)
    ensures Accepts("a" + "@" + BracketLiteral(["192", "168"]), TwoGroupAsWritten)
  {
    QuadGroups();
    assert IsDotAtom("a");
    BracketAddressDecide("a", ["192", "168", "0", "1"], TwoGroupAsWritten);
    BracketAddressDecide("a", ["192", "168"], TwoGroupAsWritten);
  }

  /** Corrected, `a@[192.168.0.1]` is accepted. */
  lemma DottedQuadExample()
    ensures Accepts("a" + "@" + BracketLiteral(["192", "168", "0", "1"]), Intended)
  {
    QuadGroups();
    assert IsDotAtom("a");
    BracketAddressDecide("a", ["192", "168", "0", "1"], Intended);
  }
}

=== FILE: enums.dfy ===
/**
 * The string enum paths of the identity and order schemas, and how a
 * document path resolves a body field: a required path refuses a missing
 * or empty string, an optional one stores nothing, a defaulted one stores
 * its default, and any present value outside the enum is refused.
 */
module Enums {
  import opened Wrappers
  import opened Requests

  datatype Sex = Male | Female
  datatype MaritalStatus = Single | Married
  datatype PaymentStatus = Unpaid | Paid
  datatype DeliveryStatus = Undelivered | Delivered

  // ---- Names as stored ----

  function SexName(x: Sex): string
  {
    match x
    case Male => "MALE"
    case Female => "FEMALE"
  }

  function MaritalStatusName(x: MaritalStatus): string
  {
    match x
    case Single => "SINGLE"
    case Married => "MARRIED"
  }

  function PaymentStatusName(x: PaymentStatus): string
  {
    match x
    case Unpaid => "unpaid"
    case Paid => "paid"
  }

  function DeliveryStatusName(x: DeliveryStatus): string
  {
    match x
    case Undelivered => "undelivered"
    case Delivered => "delivered"
  }

  // ---- The `enum` validator: exact, case-sensitive membership ----

  function ParseSex(s: string): (r: Option<Sex>)
    ensures r.Some? <==> s in ["MALE", "FEMALE"]
    ensures r.Some? ==> SexName(r.value) == s
  {
    if s == "MALE" then Some(Male)
    else if s == "FEMALE" then Some(Female)
    else None
  }

  function ParseMaritalStatus(s: string): (r: Option<MaritalStatus>)
    ensures r.Some? <==> s in ["SINGLE", "MARRIED"]
    ensures r.Some? ==> MaritalStatusName(r.value) == s
  {
    if s == "SINGLE" then Some(Single)
    else if s == "MARRIED" then Some(Married)
    else None
  }

  function ParsePaymentStatus(s: string): (r: Option<PaymentStatus>)
    ensures r.Some? <==> s in ["unpaid", "paid"]
    ensures r.Some? ==> PaymentStatusName(r.value) == s
  {
    if s == "unpaid" then Some(Unpaid)
    else if s == "paid" then Some(Paid)
    else None
  }

  function ParseDeliveryStatus(s: string): (r: Option<DeliveryStatus>)
    ensures r.Some? <==> s in ["undelivered", "delivered"]
    ensures r.Some? ==> DeliveryStatusName(r.value) == s
  {
    if s == "undelivered" then Some(Undelivered)
    else if s == "delivered" then Some(Delivered)
    else None
  }

  /** Every stored name is accepted and read back as the value it names, and names are distinct. */
  lemma NamesRoundTrip(a: Sex, b: MaritalStatus, c: PaymentStatus, d: DeliveryStatus)
    ensures ParseSex(SexName(a)) == Some(a)
    ensures ParseMaritalStatus(MaritalStatusName(b)) == Some(b)
    ensures ParsePaymentStatus(PaymentStatusName(c)) == Some(c)
    ensures ParseDeliveryStatus(DeliveryStatusName(d)) == Some(d)
  {
  }

  /** The validator is case-sensitive: the lower-case sex and upper-case payment names are refused. */
  lemma CaseMatters()
    ensures ParseSex("male").None? && ParseSex("female").None?
    ensures ParsePaymentStatus("PAID").None? && ParseDeliveryStatus("DELIVERED").None?
  {
  }

  // ---- Resolving a body field into a path value ----

  /** Why a path refused its field. */
  datatype Violation = Required(message: string) | NotInEnum(value: string)

  /** The value a path stores, or why it refused. */
  datatype Checked<T> = Accepted(value: T) | Rejected(violation: Violation)

  const SexRequired := "Please select your sex"

  /**
   * `sex`: required, so an absent or empty string fails with the path's
   * message; any other string must be one of the enum's names.
   */
  function ResolveSex(f: Field): (r: Checked<Sex>)
    ensures !Truthy(f) ==> r == Rejected(Required(SexRequired))
    ensures r.Accepted? <==> Truthy(f) && ParseSex(f.value).Some?
    ensures r.Accepted? ==> SexName(r.value) == f.value
    ensures Truthy(f) && r.Rejected? ==> r.violation == NotInEnum(f.value)
  {
    if !Truthy(f) then Rejected(Required(SexRequired))
    else match ParseSex(f.value)
      case Some(x) => Accepted(x)
      case None => Rejected(NotInEnum(f.value))
  }

  /**
   * `maritalStatus`: not required and without a default, so an absent field
   * stores nothing; a present string (the empty one included) must be one
   * of the enum's names.
   */
  function ResolveMaritalStatus(f: Field): (r: Checked<Option<MaritalStatus>>)
    ensures f.Absent? ==> r == Accepted(None)
    ensures f.Str? ==> (r.Accepted? <==> ParseMaritalStatus(f.value).Some?)
    ensures f.Str? && r.Accepted? ==> r.value.Some? && MaritalStatusName(r.value.value) == f.value
    ensures r.Rejected? ==> f.Str? && r.violation == NotInEnum(f.value)
  {
    match f
    case Absent => Accepted(None)
    case Str(s) =>
      match ParseMaritalStatus(s)
      case Some(x) => Accepted(Some(x))
      case None => Rejected(NotInEnum(s))
  }

  /** `paymentStatus`: an absent field takes the default "unpaid"; a present one must be a name. */
  function ResolvePaymentStatus(f: Field): (r: Checked<PaymentStatus>)
    ensures f.Absent? ==> r == Accepted(Unpaid)
    ensures f.Str? ==> (r.Accepted? <==> ParsePaymentStatus(f.value).Some?)
    ensures f.Str? && r.Accepted? ==> PaymentStatusName(r.value) == f.value
    ensures r.Rejected? ==> f.Str? && r.violation == NotInEnum(f.value)
  {
    match f
    case Absent => Accepted(Unpaid)
    case Str(s) =>
      match ParsePaymentStatus(s)
      case Some(x) => Accepted(x)
      case None => Rejected(NotInEnum(s))
  }

  /** `deliveryStatus`: an absent field takes the default "undelivered"; a present one must be a name. */
  function ResolveDeliveryStatus(f: Field): (r: Checked<DeliveryStatus>)
    ensures f.Absent? ==> r == Accepted(Undelivered)
    ensures f.Str? ==> (r.Accepted? <==> ParseDeliveryStatus(f.value).Some?)
    ensures f.Str? && r.Accepted? ==> DeliveryStatusName(r.value) == f.value
    ensures r.Rejected? ==> f.Str? && r.violation == NotInEnum(f.value)
  {
    match f
    case Absent => Accepted(Undelivered)
    case Str(s) =>
      match ParseDeliveryStatus(s)
      case Some(x) => Accepted(x)
      case None => Rejected(NotInEnum(s))
  }

  /** A new order is unpaid and undelivered unless the body says otherwise. */
  lemma NewOrderDefaults()
    ensures ResolvePaymentStatus(Absent) == Accepted(Unpaid)
    ensures PaymentStatusName(ResolvePaymentStatus(Absent).value) == "unpaid"
    ensures ResolveDeliveryStatus(Absent) == Accepted(Undelivered)
    ensures DeliveryStatusName(ResolveDeliveryStatus(Absent).value) == "undelivered"
  {
  }

  /** Resolving the stored name of a value gives that value back, for every path. */
  lemma ResolveName(a: Sex, b: MaritalStatus, c: PaymentStatus, d: DeliveryStatus)
    ensures ResolveSex(Str(SexName(a))) == Accepted(a)
    ensures ResolveMaritalStatus(Str(MaritalStatusName(b))) == Accepted(Some(b))
    ensures ResolvePaymentStatus(Str(PaymentStatusName(c))) == Accepted(c)
    ensures ResolveDeliveryStatus(Str(DeliveryStatusName(d))) == Accepted(d)
  {
    NamesRoundTrip(a, b, c, d);
  }
}

=== FILE: identifiers.dfy ===
/**
 * The public identifiers the schemas generate as a field default: a role
 * letter, two random upper-case letters, and a random number below 100000
 * zero-padded to five digits, e.g. "SQK04211".
 */
module Identifiers {
  import opened Wrappers
  import opened Text

  const Letters := "ABCDEFGHIJKLMNOPQRSTUVWXYZ"

  /** The i-th upper-case letter. */
  function Letter(i: LetterIndex): (c: char)
    ensures IsUpper(c)
  {
    ('A' as int + i) as char
  }

  /** `letters.charAt(i)` is the i-th upper-case letter. */
  lemma LetterAt(i: LetterIndex)
    ensures Letters[i] == Letter(i)
  {
  }

  /** `Math.floor(Math.random() * letters.length)`: an index into `Letters`. */
  type LetterIndex = x: int | 0 <= x < 26

  /** `Math.floor(Math.random() * 100000)`. */
  type Serial = x: int | 0 <= x < 100000

  /** The three random draws behind one identifier. */
  datatype IdDraw = IdDraw(first: LetterIndex, second: LetterIndex, serial: Serial)

  /** The shape every generated identifier has. */
  predicate WellFormed(prefix: char, id: string)
  {
    && |id| == 8
    && id[0] == prefix
    && IsUpper(id[1]) && IsUpper(id[2])
    && AllDigits(id[3..])
  }

  /** `prefix + letters.charAt(a) + letters.charAt(b) + n.toString().padStart(5, '0')`. */
  function Generate(prefix: char, draw: IdDraw): (id: string)
    ensures WellFormed(prefix, id)
    ensures id[1] as int == 'A' as int + draw.first && id[2] as int == 'A' as int + draw.second
    ensures ParseDecimal(id[3..]) == draw.serial
  {
    var id := [prefix, Letter(draw.first), Letter(draw.second)] + SerialDigits(draw.serial);
    assert id[3..] == SerialDigits(draw.serial);
    id
  }

  /** `n.toString().padStart(5, '0')` for a serial: five digits worth `n`. */
  function SerialDigits(n: Serial): (s: string)
    ensures |s| == 5 && AllDigits(s) && ParseDecimal(s) == n
  {
    var digits := DecimalString(n);
    assert Pow10(5) == 100000;
    DecimalStringWidth(n, 5);
    PaddedValue(digits, 5);
    PadStart(digits, 5, '0')
  }

  /** Zero padding keeps a numeral's digits and its value. */
  lemma {:induction false} PaddedValue(digits: string, width: nat)
    requires AllDigits(digits)
    ensures AllDigits(PadStart(digits, width, '0'))
    ensures ParseDecimal(PadStart(digits, width, '0')) == ParseDecimal(digits)
  {
    if |digits| < width {
      LeadingZeros(width - |digits|, digits);
    }
  }

  lemma {:induction false} LeadingZeros(k: nat, s: string)
    requires AllDigits(s)
    ensures AllDigits(Repeat('0', k) + s)
    ensures ParseDecimal(Repeat('0', k) + s) == ParseDecimal(s)
    decreases |s|
  {
    var z := Repeat('0', k);
    if |s| == 0 {
      assert z + s == z;
      ParseDecimalZero(z);
    } else {
      var u := s[..|s| - 1];
      LeadingZeros(k, u);
      assert z + s == (z + u) + [s[|s| - 1]];
      assert (z + s)[..|z + s| - 1] == z + u;
    }
  }

  /** Recovers the draws from an identifier; fails on anything `Generate` cannot produce. */
  function Parse(prefix: char, id: string): (r: Option<IdDraw>)
  {
    if WellFormed(prefix, id) then
      assert |id[3..]| == 5 && Pow10(5) == 100000;
      Some(IdDraw(id[1] as int - 'A' as int, id[2] as int - 'A' as int, ParseDecimal(id[3..])))
    else None
  }

  /** Generated identifiers parse back to the draws that made them. */
  lemma ParseGenerate(prefix: char, draw: IdDraw)
    ensures Parse(prefix, Generate(prefix, draw)) == Some(draw)
  {
  }

  /** Five digits are the padded numeral of their own value. */
  lemma SerialRoundTrip(t: string)
    requires |t| == 5 && AllDigits(t)
    ensures ParseDecimal(t) < 100000
    ensures SerialDigits(ParseDecimal(t)) == t
  {
    assert Pow10(5) == 100000;
    PaddedNumeralOfValue(t);
  }

  lemma GenerateUnfold(prefix: char, draw: IdDraw)
    ensures Generate(prefix, draw) == [prefix, Letter(draw.first), Letter(draw.second)] + SerialDigits(draw.serial)
  {
  }

  lemma Reassemble(id: string, a: char, b: char, c: char, rest: string)
    requires |id| == 8 && id[0] == a && id[1] == b && id[2] == c && id[3..] == rest
    ensures [a, b, c] + rest == id
  {
    assert id == id[..3] + id[3..];
  }

  /** Anything that parses is exactly the identifier its draws generate. */
  lemma {:induction false} GenerateParse(prefix: char, id: string)
    requires Parse(prefix, id).Some?
    ensures Generate(prefix, Parse(prefix, id).value) == id
  {
    var draw := Parse(prefix, id).value;
    GenerateUnfold(prefix, draw);
    SerialRoundTrip(id[3..]);
    assert Letter(draw.first) == id[1] && Letter(draw.second) == id[2];
    Reassemble(id, prefix, Letter(draw.first), Letter(draw.second), SerialDigits(draw.serial));
  }

  /** The identifiers `Generate` can produce are exactly the well-formed ones. */
  lemma GeneratedIffWellFormed(prefix: char, id: string)
    ensures WellFormed(prefix, id) <==> exists draw :: Generate(prefix, draw) == id
  {
    if WellFormed(prefix, id) {
      GenerateParse(prefix, id);
    }
  }
}

=== FILE: ledger.dfy ===
/**
 * The SuperAdmin verification ledger: outstanding one-time-password
 * challenges, each stored with the digest of its code, its creation time
 * and its expiry, keyed by the id of the record it verifies. Documents for
 * one id are kept in insertion order, so `findOne` sees the oldest.
 */
module Ledger {
  import opened Wrappers
  import opened Text
  import opened Crypto
  import opened Accounts

  /** Six hours in milliseconds, `3600000 * 6`: how long a challenge stays valid. */
  const OtpLifetime: int := 3600000 * 6

  /** One verification document: `{ superAdminId, otp, createdAt, expiresAt }` without the id. */
  datatype Challenge = Challenge(otpHash: Digest, createdAt: int, expiresAt: int)

  type Ledger = map<Id, seq<Challenge>>

  /**
   * The integer part of `1000 + Math.random() * 9000` minus 1000: the
   * random draw that picks a code. `Math.random()` lies in [0, 1), so the
   * draw lies in [0, 8999].
   */
  type OtpDraw = x: int | 0 <= x < 9000

  /** `` `${Math.floor(1000 + Math.random() * 9000)}` ``: the code mailed to the user. */
  function OtpCode(draw: OtpDraw): (code: string)
    ensures |code| == 4 && AllDigits(code) && code[0] != '0'
    ensures 1000 <= ParseDecimal(code) <= 9999
    ensures ParseDecimal(code) == 1000 + draw
  {
    var code := DecimalString(1000 + draw);
    DecimalStringWidth(1000 + draw, 4);
    assert |code| > 3 by {
      if |code| <= 3 {
        PowMonotone(|code|, 3);
      }
    }
    code
  }

  /** Distinct draws give distinct codes, so every draw is told apart from every other. */
  lemma OtpCodeInjective(a: OtpDraw, b: OtpDraw)
    ensures OtpCode(a) == OtpCode(b) <==> a == b
  {
    if OtpCode(a) == OtpCode(b) {
      assert ParseDecimal(OtpCode(a)) == ParseDecimal(OtpCode(b));
    }
  }

  /** The challenge stored for a code issued at `now`: its digest, and an expiry six hours on. */
  function NewChallenge(code: string, now: int): (c: Challenge)
    ensures Compare(code, c.otpHash)
    ensures forall other :: Compare(other, c.otpHash) ==> other == code
    ensures c.createdAt == now && c.expiresAt == now + 21_600_000
  {
    Challenge(Hash(code), now, now + OtpLifetime)
  }

  /** `findOne({ superAdminId: id })`: the oldest challenge for an id, if any. */
  function FindChallenge(ledger: Ledger, id: Id): (r: Option<Challenge>)
    ensures r.Some? <==> id in ledger && |ledger[id]| > 0
    ensures r.Some? ==> r.value == ledger[id][0]
  {
    if id in ledger && |ledger[id]| > 0 then Some(ledger[id][0]) else None
  }

  /** The challenges stored for an id, oldest first. */
  function Pending(ledger: Ledger, id: Id): seq<Challenge>
  {
    if id in ledger then ledger[id] else []
  }

  /** `new superAdminVerify({ ... }).save()`: append a challenge for an id. */
  function Insert(ledger: Ledger, id: Id, c: Challenge): (r: Ledger)
    ensures r.Keys == ledger.Keys + {id}
    ensures Pending(r, id) == Pending(ledger, id) + [c]
    ensures forall k :: k != id ==> Pending(r, k) == Pending(ledger, k)
    ensures FindChallenge(r, id) == Some(if id in ledger && |ledger[id]| > 0 then ledger[id][0] else c)
  {
    ledger[id := Pending(ledger, id) + [c]]
  }

  /** `deleteMany({ superAdminId: id })`: drop every challenge for an id. */
  function DeleteAll(ledger: Ledger, id: Id): (r: Ledger)
    ensures FindChallenge(r, id).None? && Pending(r, id) == []
    ensures r.Keys == ledger.Keys - {id}
    ensures forall k :: k != id ==> Pending(r, k) == Pending(ledger, k)
  {
    ledger - {id}
  }

  /** Every stored challenge expires exactly six hours after it was created, and no id keeps an empty list. */
  ghost predicate Valid(ledger: Ledger)
  {
    forall id :: id in ledger ==>
      && |ledger[id]| > 0
      && forall i :: 0 <= i < |ledger[id]| ==> ledger[id][i].expiresAt == ledger[id][i].createdAt + OtpLifetime
  }

  lemma InsertPreservesValid(ledger: Ledger, id: Id, code: string, now: int)
    requires Valid(ledger)
    ensures Valid(Insert(ledger, id, NewChallenge(code, now)))
  {
  }

  lemma DeleteAllPreservesValid(ledger: Ledger, id: Id)
    requires Valid(ledger)
    ensures Valid(DeleteAll(ledger, id))
  {
  }
}

=== FILE: order_model.dfy ===
/**
 * The Order schema's own logic: its public id default and its email
 * validator (not declared unique). Its status paths are in `Enums`.
 */
module OrderModel {
  import opened Wrappers
  import opened Text
  import Identifiers
  import opened EmailPattern

  const IdPrefix := 'O'

  /** `generateUniqueOrderId`: "O", two random capitals, five random digits. */
  function GenerateId(draw: Identifiers.IdDraw): (id: string)
    ensures |id| == 8 && id[0] == 'O'
    ensures IsUpper(id[1]) && IsUpper(id[2]) && AllDigits(id[3..])
    ensures Identifiers.Parse(IdPrefix, id) == Some(draw)
  {
    Identifiers.ParseGenerate(IdPrefix, draw);
    Identifiers.Generate(IdPrefix, draw)
  }

  /** The pattern the `email` path's `match` validator is written with: `EmailPathValid(raw, EmailAsWritten)` is the path as written, `ValidEmail` the corrected one. */
  const EmailAsWritten := FourGroupAsWritten
}

=== FILE: requests.dfy ===
/**
 * The request bodies the controllers destructure. Each field is either
 * missing or a string; JavaScript's `!field` test is `!Truthy(field)`.
 */
module Requests {

  /** A body field: `undefined` (or `null`) or a string. */
  datatype Field = Absent | Str(value: string)

  /** JavaScript truthiness of a field: `undefined`, `null` and the empty string are the falsy ones. */
  function Truthy(f: Field): (t: bool)
    ensures t <==> f != Absent && f != Str("")
  {
    f.Str? && |f.value| > 0
  }

  /** The profile fields of an identity registration or update, besides name, email and password. */
  datatype Details = Details(
    street: Field,
    postcode: Field,
    country: Field,
    stateCounty: Field,
    cityTown: Field,
    age: Field,
    sex: Field,
    maritalStatus: Field,
    phoneNumber: Field,
    nationality: Field)

  /** The body of a register or update request. */
  datatype Form = Form(
    firstName: Field,
    lastName: Field,
    email: Field,
    password: Field,
    details: Details)
}

=== FILE: responses.dfy ===
/** The first HTTP response a handler emits: a status code and a JSON body. */
module Responses {
  import opened Accounts
  import opened Crypto

  datatype Body =
    | JsonString(text: string)                  // res.json("...")
    | JsonMessage(text: string)                 // res.json({ message })
    | OtpSent(id: Id, email: string)            // { message: 'Verification OTP email sent', data }
    | Record(account: Account)                  // res.json(savedRecord)
    | Session(token: Token, account: Account)   // res.json({ token, record })

  datatype Response = Response(status: nat, body: Body)

  /** `res.status(400).json(text)`. */
  function BadRequest(text: string): Response
  {
    Response(400, JsonString(text))
  }

  /** `res.status(400).json({ message })`, the shape of every error thrown in a try block. */
  function Rejection(message: string): Response
  {
    Response(400, JsonMessage(message))
  }

  /** What a handler on one collection leaves behind: the collection and the first response. */
  datatype Outcome = Outcome(directory: Directory, response: Response)
}

=== FILE: superadmin_controller.dfy ===
/**
 * The SuperAdmin controller as a state machine. The state is the three
 * identity collections, the verification ledger and the mail sent so far;
 * each handler is a function from a state and its inputs (request fields,
 * random draws, the clock, the mail transport's outcome) to the next state
 * and the first response the handler emits.
 */
module SuperAdminController {
  import opened Wrappers
  import opened Text
  import opened Crypto
  import opened Requests
  import opened Accounts
  import opened Auth
  import opened Responses
  import Identifiers
  import Ledger
  import SuperAdminModel
  import UserModel
  import AdminController

  const EmptyOtpDetails := "Empty OTP details are not allowed"
  const NoChallenge := "Account record does not exist"
  const OtpExpired := "OTP code has expired"
  const InvalidOtp := "Invalid OTP code"
  const EmailVerified := "SuperAdmin email verified successfully"
  const EmptyResendDetails := "Empty superadmin details"
  const NotVerified := "Email not verified. Please check your email for the verification OTP."
  const RequiredFieldsMissing := "Please fill in all required fields"

  /** A verification mail: the recipient and the code in its body. */
  datatype Mail = Mail(to: string, code: string)

  /** What the mail transport did with a message. */
  datatype Delivery = Delivered | Failed(reason: string)

  datatype State = State(
    superAdmins: Directory,
    users: Directory,
    admins: Directory,
    challenges: Ledger.Ledger,
    outbox: seq<Mail>)

  /** A handler's result: the next state and the first response. */
  datatype Step = Step(state: State, response: Response)

  /** Every collection keeps unique ids and emails; every challenge expires six hours after it was made. */
  ghost predicate ValidState(s: State)
  {
    Valid(s.superAdmins) && Valid(s.users) && Valid(s.admins) && Ledger.Valid(s.challenges)
  }

  const Initial := State(EmptyDirectory, EmptyDirectory, EmptyDirectory, map[], [])

  lemma InitialValid()
    ensures ValidState(Initial)
  {
  }

  /**
   * `sendEmailVerification`: a fresh four-digit code is stored (as a digest,
   * with a six-hour expiry) before the mail goes out, so a failed delivery
   * still leaves the challenge behind and answers 500 with the transport's
   * message.
   */
  function SendEmailVerification(
    s: State, id: Id, email: string, draw: Ledger.OtpDraw, now: int, delivery: Delivery): (r: Step)
    ensures r.state.superAdmins == s.superAdmins && r.state.users == s.users && r.state.admins == s.admins
    ensures forall k :: k != id ==> Ledger.Pending(r.state.challenges, k) == Ledger.Pending(s.challenges, k)
    ensures var before := Ledger.Pending(s.challenges, id);
      var after := Ledger.Pending(r.state.challenges, id);
      && |after| == |before| + 1 && after[..|before|] == before
      && Compare(Ledger.OtpCode(draw), after[|before|].otpHash)
      && after[|before|].createdAt == now
      && after[|before|].expiresAt == now + Ledger.OtpLifetime
    ensures delivery.Delivered? ==>
      && r.state.outbox == s.outbox + [Mail(email, Ledger.OtpCode(draw))]
      && r.response == Response(200, OtpSent(id, email))
    ensures delivery.Failed? ==>
      && r.state.outbox == s.outbox
      && r.response == Response(500, JsonMessage(delivery.reason))
  {
    var code := Ledger.OtpCode(draw);
    var challenges := Ledger.Insert(s.challenges, id, Ledger.NewChallenge(code, now));
    match delivery
    case Delivered =>
      Step(s.(challenges := challenges, outbox := s.outbox + [Mail(email, code)]), Response(200, OtpSent(id, email)))
    case Failed(reason) =>
      Step(s.(challenges := challenges), Response(500, JsonMessage(reason)))
  }

  /**
   * `registerSuperAdmin`: the shared validation and duplicate check against
   * the SuperAdmin collection, a new unverified record, then a verification
   * challenge mailed to the stored (trimmed) address. The first response is
   * the one the verification mail step sends.
   */
  function RegisterSuperAdmin(
    s: State, form: Form, idDraw: Identifiers.IdDraw, otpDraw: Ledger.OtpDraw, now: int, delivery: Delivery): (r: Step)
    ensures RegistrationError(form).Some? ==> r == Step(s, BadRequest(RegistrationError(form).value))
    ensures RegistrationError(form).None? && EmailTaken(s.superAdmins, form.email.value) ==>
      r == Step(s, BadRequest(EmailInUse))
    ensures r.response.status == 200 <==>
      RegistrationError(form).None? && !EmailTaken(s.superAdmins, form.email.value) && delivery.Delivered?
    ensures RegistrationError(form).None? && !EmailTaken(s.superAdmins, form.email.value) ==>
      var accounts := r.state.superAdmins.accounts;
      && |accounts| == |s.superAdmins.accounts| + 1
      && var a := accounts[|accounts| - 1];
      && accounts == s.superAdmins.accounts + [a]
      && r.state.superAdmins.nextId == s.superAdmins.nextId + 1
      && a.id == s.superAdmins.nextId
      && a.publicId == SuperAdminModel.GenerateId(idDraw)
      && a.firstName == form.firstName.value && a.lastName == form.lastName.value && a.details == form.details
      && a.email == EmailKey(form.email.value)
      && Compare(form.password.value, a.passwordHash)
      && a.verification == Flag(false)
      && r.state.users == s.users && r.state.admins == s.admins
      && Ledger.Pending(r.state.challenges, a.id) == Ledger.Pending(s.challenges, a.id) + [Ledger.NewChallenge(Ledger.OtpCode(otpDraw), now)]
      && (forall k :: k != a.id ==> Ledger.Pending(r.state.challenges, k) == Ledger.Pending(s.challenges, k))
      && (delivery.Delivered? ==> r.state.outbox == s.outbox + [Mail(a.email, Ledger.OtpCode(otpDraw))])
      && (delivery.Failed? ==> r.state.outbox == s.outbox)
      && r.response == (if delivery.Delivered? then Response(200, OtpSent(a.id, a.email))
                        else Response(500, JsonMessage(delivery.reason)))
  {
    match Admit(s.superAdmins, form, SuperAdminModel.GenerateId(idDraw), SuperAdminModel.ResolveIsVerified(Some(false)))
    case Refused(reason) => Step(s, BadRequest(reason))
    case Admitted(d, a) =>
      assert Ledger.NewChallenge(Ledger.OtpCode(otpDraw), now).expiresAt == now + Ledger.OtpLifetime;
      SendEmailVerification(s.(superAdmins := d), a.id, a.email, otpDraw, now, delivery)
  }

  /**
   * `verifyOtp`: missing input, then no challenge, then an expired challenge
   * (which is discarded), then a wrong code; the first failure wins and
   * answers 400 with its message. A correct, unexpired code verifies the
   * record and discards every challenge for it. Expiry is strict: a
   * challenge is still good at the instant it expires.
   */
  function VerifyOtp(s: State, id: Option<Id>, otp: Field, now: int): (r: Step)
    ensures id.None? || !Truthy(otp) ==> r == Step(s, Rejection(EmptyOtpDetails))
    ensures id.Some? && Truthy(otp) && Ledger.FindChallenge(s.challenges, id.value).None? ==>
      r == Step(s, Rejection(NoChallenge))
    ensures id.Some? && Truthy(otp) && Ledger.FindChallenge(s.challenges, id.value).Some? ==>
      var c := Ledger.FindChallenge(s.challenges, id.value).value;
      && (c.expiresAt < now ==>
            && r.response == Rejection(OtpExpired)
            && r.state.superAdmins == s.superAdmins && r.state.outbox == s.outbox
            && Ledger.Pending(r.state.challenges, id.value) == []
            && (forall k :: k != id.value ==> Ledger.Pending(r.state.challenges, k) == Ledger.Pending(s.challenges, k)))
      && (c.expiresAt >= now && !Compare(otp.value, c.otpHash) ==> r == Step(s, Rejection(InvalidOtp)))
    ensures r.response.status == 200 <==>
      && id.Some? && Truthy(otp)
      && Ledger.FindChallenge(s.challenges, id.value).Some?
      && now <= Ledger.FindChallenge(s.challenges, id.value).value.expiresAt
      && Compare(otp.value, Ledger.FindChallenge(s.challenges, id.value).value.otpHash)
    ensures r.response.status != 200 ==> r.response.status == 400 && r.state.superAdmins == s.superAdmins
    ensures r.response.status == 200 ==>
      && r.response == Response(200, JsonMessage(EmailVerified))
      && var before := s.superAdmins.accounts;
      && var after := r.state.superAdmins.accounts;
      && r.state.superAdmins.nextId == s.superAdmins.nextId
      && |after| == |before|
      && (forall i :: 0 <= i < |after| ==> after[i] == before[i].(verification := after[i].verification))
      && (forall i :: 0 <= i < |after| && before[i].id != id.value ==> after[i] == before[i])
      && (FindById(before, id.value).Some? ==> IsVerified(after[FindById(before, id.value).value].verification))
      && Ledger.Pending(r.state.challenges, id.value) == []
      && (forall k :: k != id.value ==> Ledger.Pending(r.state.challenges, k) == Ledger.Pending(s.challenges, k))
    ensures r.state.users == s.users && r.state.admins == s.admins && r.state.outbox == s.outbox
  {
    if id.None? || !Truthy(otp) then Step(s, Rejection(EmptyOtpDetails))
    else match Ledger.FindChallenge(s.challenges, id.value)
      case None => Step(s, Rejection(NoChallenge))
      case Some(c) =>
        if c.expiresAt < now then
          Step(s.(challenges := Ledger.DeleteAll(s.challenges, id.value)), Rejection(OtpExpired))
        else if !Compare(otp.value, c.otpHash) then
          Step(s, Rejection(InvalidOtp))
        else
          var directory := Directory(SetVerified(s.superAdmins.accounts, id.value), s.superAdmins.nextId);
          Step(
            s.(superAdmins := directory, challenges := Ledger.DeleteAll(s.challenges, id.value)),
            Response(200, JsonMessage(EmailVerified)))
  }

  /**
   * `resendVerificationOtp`: with both id and email present, every earlier
   * challenge for the id is discarded and a new one issued and mailed to
   * the email as given. Whether the id names a record is not checked.
   */
  function ResendVerificationOtp(
    s: State, id: Option<Id>, email: Field, draw: Ledger.OtpDraw, now: int, delivery: Delivery): (r: Step)
    ensures id.None? || !Truthy(email) ==> r == Step(s, Rejection(EmptyResendDetails))
    ensures id.Some? && Truthy(email) ==>
      && r.state.superAdmins == s.superAdmins && r.state.users == s.users && r.state.admins == s.admins
      && Ledger.Pending(r.state.challenges, id.value) == [Ledger.NewChallenge(Ledger.OtpCode(draw), now)]
      && (forall k :: k != id.value ==> Ledger.Pending(r.state.challenges, k) == Ledger.Pending(s.challenges, k))
      && (delivery.Delivered? ==>
            && r.state.outbox == s.outbox + [Mail(email.value, Ledger.OtpCode(draw))]
            && r.response == Response(200, OtpSent(id.value, email.value)))
      && (delivery.Failed? ==>
            r.state.outbox == s.outbox && r.response == Response(500, JsonMessage(delivery.reason)))
  {
    if id.None? || !Truthy(email) then Step(s, Rejection(EmptyResendDetails))
    else
      var cleared := s.(challenges := Ledger.DeleteAll(s.challenges, id.value));
      var r := SendEmailVerification(cleared, id.value, email.value, draw, now, delivery);
      assert Ledger.Pending(r.state.challenges, id.value)[0] == Ledger.NewChallenge(Ledger.OtpCode(draw), now);
      r
  }

  /**
   * `loginSuperAdmin`: the shared credential check; only a record whose
   * password matched is then checked for verification, and only a verified
   * one gets a one-hour token.
   */
  function LoginSuperAdmin(s: State, email: Field, password: Field): (r: Response)
    ensures CheckCredentials(s.superAdmins, email, password).Incomplete? ==>
      r == BadRequest(CheckCredentials(s.superAdmins, email, password).reason)
    ensures CheckCredentials(s.superAdmins, email, password).Mismatch? ==> r == BadRequest(InvalidCredentials)
    ensures r == Rejection(NotVerified) <==>
      && CheckCredentials(s.superAdmins, email, password).Match?
      && !IsVerified(CheckCredentials(s.superAdmins, email, password).account.verification)
    ensures r.status == 200 <==>
      && CheckCredentials(s.superAdmins, email, password).Match?
      && IsVerified(CheckCredentials(s.superAdmins, email, password).account.verification)
    ensures r.status == 200 ==>
      var a := CheckCredentials(s.superAdmins, email, password).account;
      r.body == Session(Sign(a.id), a) && r.body.token.expiresIn == OneHour
    ensures r.status != 200 ==> r.status == 400
  {
    match CheckCredentials(s.superAdmins, email, password)
    case Incomplete(reason) => BadRequest(reason)
    case Mismatch => BadRequest(InvalidCredentials)
    case Match(a) =>
      if !IsVerified(a.verification) then Rejection(NotVerified)
      else Response(200, Session(Sign(a.id), a))
  }

  /** `registerUser`: the shared registration against the User collection; the record has no verification state. */
  function RegisterUser(s: State, form: Form, draw: Identifiers.IdDraw): (r: Step)
    ensures RegistrationError(form).Some? ==> r == Step(s, BadRequest(RegistrationError(form).value))
    ensures RegistrationError(form).None? && EmailTaken(s.users, form.email.value) ==>
      r == Step(s, BadRequest(EmailInUse))
    ensures r.response.status == 200 <==> RegistrationError(form).None? && !EmailTaken(s.users, form.email.value)
    ensures r.state.superAdmins == s.superAdmins && r.state.admins == s.admins
    ensures r.state.challenges == s.challenges && r.state.outbox == s.outbox
    ensures r.response.status == 200 ==>
      && r.response.body.Record?
      && var a := r.response.body.account;
      && r.state.users == Directory(s.users.accounts + [a], s.users.nextId + 1)
      && a.id == s.users.nextId
      && a.publicId == UserModel.GenerateId(draw)
      && a.firstName == form.firstName.value && a.lastName == form.lastName.value && a.details == form.details
      && a.email == EmailKey(form.email.value)
      && Compare(form.password.value, a.passwordHash)
      && a.verification == Unset
  {
    var o := Admit(s.users, form, UserModel.GenerateId(draw), UserModel.ResolveIsVerified(None));
    if o.Refused? then Step(s, BadRequest(o.reason))
    else
      assert o.directory == Directory(s.users.accounts + [o.account], s.users.nextId + 1);
      Step(s.(users := o.directory), Response(200, Record(o.account)))
  }

  /** `registerAdmin` of this controller: the Admin controller's handler on the Admin collection. */
  function RegisterAdmin(s: State, form: Form, draw: Identifiers.IdDraw): (r: Step)
    ensures r.response == AdminController.RegisterAdmin(s.admins, form, draw).response
    ensures r.state == s.(admins := AdminController.RegisterAdmin(s.admins, form, draw).directory)
    ensures r.response.status != 200 ==> r.state == s
  {
    var o := AdminController.RegisterAdmin(s.admins, form, draw);
    Step(s.(admins := o.directory), o.response)
  }

  /**
   * The required-field check of `updateSuperAdmin`: ten fields must be
   * present and non-empty; the password, age, marital status and
   * nationality are not checked.
   */
  function UpdateRequiredFieldsError(form: Form): (r: Option<string>)
    ensures r.Some? ==> r.value == RequiredFieldsMissing
    ensures r.None? <==>
      && Truthy(form.firstName) && Truthy(form.lastName) && Truthy(form.email)
      && Truthy(form.details.street) && Truthy(form.details.postcode) && Truthy(form.details.country)
      && Truthy(form.details.stateCounty) && Truthy(form.details.cityTown)
      && Truthy(form.details.sex) && Truthy(form.details.phoneNumber)
  {
    var d := form.details;
    if !Truthy(form.firstName) || !Truthy(form.lastName) || !Truthy(form.email)
      || !Truthy(d.street) || !Truthy(d.postcode) || !Truthy(d.country) || !Truthy(d.stateCounty)
      || !Truthy(d.cityTown) || !Truthy(d.sex) || !Truthy(d.phoneNumber)
    then Some(RequiredFieldsMissing)
    else None
  }
  // ---- Invariants ----

  lemma RegisterSuperAdminPreservesValid(
    s: State, form: Form, idDraw: Identifiers.IdDraw, otpDraw: Ledger.OtpDraw, now: int, delivery: Delivery)
    requires ValidState(s)
    ensures ValidState(RegisterSuperAdmin(s, form, idDraw, otpDraw, now, delivery).state)
  {
    var publicId := SuperAdminModel.GenerateId(idDraw);
    AdmitPreservesValid(s.superAdmins, form, publicId, Flag(false));
    match Admit(s.superAdmins, form, publicId, Flag(false))
    case Refused(_) =>
    case Admitted(d, a) =>
      Ledger.InsertPreservesValid(s.challenges, a.id, Ledger.OtpCode(otpDraw), now);
  }

  lemma VerifyOtpPreservesValid(s: State, id: Option<Id>, otp: Field, now: int)
    requires ValidState(s)
    ensures ValidState(VerifyOtp(s, id, otp, now).state)
  {
    if id.Some? {
      SetVerifiedPreservesValid(s.superAdmins, id.value);
      Ledger.DeleteAllPreservesValid(s.challenges, id.value);
    }
  }

  lemma ResendPreservesValid(
    s: State, id: Option<Id>, email: Field, draw: Ledger.OtpDraw, now: int, delivery: Delivery)
    requires ValidState(s)
    ensures ValidState(ResendVerificationOtp(s, id, email, draw, now, delivery).state)
  {
    if id.Some? {
      var cleared := Ledger.DeleteAll(s.challenges, id.value);
      Ledger.DeleteAllPreservesValid(s.challenges, id.value);
      Ledger.InsertPreservesValid(cleared, id.value, Ledger.OtpCode(draw), now);
    }
  }

  lemma RegisterUserPreservesValid(s: State, form: Form, draw: Identifiers.IdDraw)
    requires ValidState(s)
    ensures ValidState(RegisterUser(s, form, draw).state)
  {
    AdmitPreservesValid(s.users, form, UserModel.GenerateId(draw), Unset);
  }

  lemma RegisterAdminPreservesValid(s: State, form: Form, draw: Identifiers.IdDraw)
    requires ValidState(s)
    ensures ValidState(RegisterAdmin(s, form, draw).state)
  {
    AdminController.RegisterAdminPreservesValid(s.admins, form, draw);
  }

  // ---- Registration ----

  /** The three registration handlers refuse an invalid body with the same response, and store nothing. */
  lemma SameValidationEverywhere(
    s: State, form: Form, idDraw: Identifiers.IdDraw, otpDraw: Ledger.OtpDraw, now: int, delivery: Delivery)
    requires RegistrationError(form).Some?
    ensures var expected := Step(s, BadRequest(RegistrationError(form).value));
      && RegisterSuperAdmin(s, form, idDraw, otpDraw, now, delivery) == expected
      && RegisterUser(s, form, idDraw) == expected
      && RegisterAdmin(s, form, idDraw) == expected
  {
  }

  // ---- The one-time password ----

  /** A code that verified once cannot verify again: its challenge is gone. */
  lemma OtpSingleUse(s: State, id: Id, otp: Field, now: int, again: Field, later: int)
    requires VerifyOtp(s, Some(id), otp, now).response.status == 200
    requires Truthy(again)
    ensures var next := VerifyOtp(s, Some(id), otp, now).state;
      VerifyOtp(next, Some(id), again, later) == Step(next, Rejection(NoChallenge))
  {
  }

  /** Expiry is strict: the right code still verifies at the expiry instant, and no later. */
  lemma ExpiryIsStrict(s: State, id: Id, code: string)
    requires Ledger.FindChallenge(s.challenges, id).Some?
    requires Compare(code, Ledger.FindChallenge(s.challenges, id).value.otpHash) && |code| > 0
    ensures var expiry := Ledger.FindChallenge(s.challenges, id).value.expiresAt;
      && VerifyOtp(s, Some(id), Str(code), expiry).response.status == 200
      && VerifyOtp(s, Some(id), Str(code), expiry + 1).response == Rejection(OtpExpired)
  {
  }

  /**
   * After a resend, only the new code verifies: an earlier code is refused
   * as invalid, and the new one is accepted for the next six hours.
   */
  lemma ResendInvalidatesOld(
    s: State, id: Id, email: string, draw: Ledger.OtpDraw, now: int, delivery: Delivery,
    stale: string, later: int)
    requires |email| > 0 && |stale| > 0 && stale != Ledger.OtpCode(draw)
    requires now <= later <= now + Ledger.OtpLifetime
    ensures var next := ResendVerificationOtp(s, Some(id), Str(email), draw, now, delivery).state;
      && VerifyOtp(next, Some(id), Str(stale), later) == Step(next, Rejection(InvalidOtp))
      && VerifyOtp(next, Some(id), Str(Ledger.OtpCode(draw)), later).response.status == 200
  {
    var next := ResendVerificationOtp(s, Some(id), Str(email), draw, now, delivery).state;
    assert Ledger.FindChallenge(next.challenges, id) == Some(Ledger.NewChallenge(Ledger.OtpCode(draw), now));
  }

  /**
   * Resending to an id that names no record, then verifying with the mailed
   * code, succeeds without verifying anything: neither handler checks that
   * the id names a SuperAdmin.
   */
  lemma VerifyWithoutRecord(s: State, id: Id, email: string, draw: Ledger.OtpDraw, now: int)
    requires |email| > 0
    requires FindById(s.superAdmins.accounts, id).None?
    ensures var sent := ResendVerificationOtp(s, Some(id), Str(email), draw, now, Delivered).state;
      var r := VerifyOtp(sent, Some(id), Str(Ledger.OtpCode(draw)), now);
      r.response.status == 200 && r.state.superAdmins == s.superAdmins
  {
    var sent := ResendVerificationOtp(s, Some(id), Str(email), draw, now, Delivered).state;
    assert Ledger.FindChallenge(sent.challenges, id) == Some(Ledger.NewChallenge(Ledger.OtpCode(draw), now));
  }

  /**
   * Whoever knows a record's id can verify it: a resend mails the fresh code
   * to whatever address the request names, and that code then sets the
   * record's flag. Nothing ties the address to the record's own email.
   */
  lemma ResendToAnyAddress(s: State, id: Id, n: nat, email: string, draw: Ledger.OtpDraw, now: int)
    requires ValidState(s) && |email| > 0
    requires n < |s.superAdmins.accounts| && FindById(s.superAdmins.accounts, id) == Some(n)
    ensures var sent := ResendVerificationOtp(s, Some(id), Str(email), draw, now, Delivered).state;
      && sent.outbox == s.outbox + [Mail(email, Ledger.OtpCode(draw))]
      && var r := VerifyOtp(sent, Some(id), Str(Ledger.OtpCode(draw)), now);
      && r.response.status == 200
      && |r.state.superAdmins.accounts| == |s.superAdmins.accounts|
      && r.state.superAdmins.accounts[n] == s.superAdmins.accounts[n].(verification := Flag(true))
  {
    ResendPreservesValid(s, Some(id), Str(email), draw, now, Delivered);
    var sent := ResendVerificationOtp(s, Some(id), Str(email), draw, now, Delivered).state;
    assert Ledger.FindChallenge(sent.challenges, id) == Some(Ledger.NewChallenge(Ledger.OtpCode(draw), now));
    VerifiedRecord(sent, id, n, Ledger.OtpCode(draw), now);
  }

  // ---- Login ----

  /**
   * In a valid state a SuperAdmin logs in exactly when some record has the
   * trimmed email, a digest of the password, and its flag set.
   */
  lemma LoginSuperAdminComplete(s: State, email: string, password: string)
    requires ValidState(s)
    requires |email| > 0 && |password| > 0
    ensures LoginSuperAdmin(s, Str(email), Str(password)).status == 200 <==>
      (exists i :: 0 <= i < |s.superAdmins.accounts|
        && s.superAdmins.accounts[i].email == EmailKey(email)
        && Compare(password, s.superAdmins.accounts[i].passwordHash)
        && IsVerified(s.superAdmins.accounts[i].verification))
  {
    var accounts := s.superAdmins.accounts;
    CheckCredentialsComplete(s.superAdmins, email, password);
    if i :| (0 <= i < |accounts| && accounts[i].email == EmailKey(email)
        && Compare(password, accounts[i].passwordHash) && IsVerified(accounts[i].verification)) {
      FindByEmailUnique(s.superAdmins, EmailKey(email), i);
    }
  }

  /** A record found by email whose password matches and whose flag is set gets a token. */
  lemma VerifiedLogsIn(s: State, email: Field, password: Field, i: nat)
    requires Valid(s.superAdmins) && Truthy(email) && Truthy(password)
    requires i < |s.superAdmins.accounts|
    requires s.superAdmins.accounts[i].email == EmailKey(email.value)
    requires Compare(password.value, s.superAdmins.accounts[i].passwordHash)
    ensures var a := s.superAdmins.accounts[i];
      LoginSuperAdmin(s, email, password) == (
        if IsVerified(a.verification) then Response(200, Session(Sign(a.id), a)) else Rejection(NotVerified))
  {
    FindByEmailUnique(s.superAdmins, EmailKey(email.value), i);
  }

  /** Registering stores the record last, unverified, with its own challenge first in line. */
  lemma RegisteredRecord(
    s: State, form: Form, idDraw: Identifiers.IdDraw, otpDraw: Ledger.OtpDraw, now: int)
    requires ValidState(s)
    requires RegistrationError(form).None? && !EmailTaken(s.superAdmins, form.email.value)
    requires s.superAdmins.nextId !in s.challenges
    ensures var registered := RegisterSuperAdmin(s, form, idDraw, otpDraw, now, Delivered).state;
      var n := |s.superAdmins.accounts|;
      && ValidState(registered)
      && n < |registered.superAdmins.accounts|
      && registered.superAdmins.accounts[n].id == s.superAdmins.nextId
      && registered.superAdmins.accounts[n].email == EmailKey(form.email.value)
      && Compare(form.password.value, registered.superAdmins.accounts[n].passwordHash)
      && registered.superAdmins.accounts[n].verification == Flag(false)
      && FindById(registered.superAdmins.accounts, s.superAdmins.nextId) == Some(n)
      && Ledger.FindChallenge(registered.challenges, s.superAdmins.nextId)
           == Some(Ledger.NewChallenge(Ledger.OtpCode(otpDraw), now))
      && registered.outbox[|registered.outbox| - 1] == Mail(EmailKey(form.email.value), Ledger.OtpCode(otpDraw))
  {
    RegisterSuperAdminPreservesValid(s, form, idDraw, otpDraw, now, Delivered);
  }

  /** Verifying a record's own code sets its flag and keeps everything else about it. */
  lemma VerifiedRecord(s: State, id: Id, n: nat, code: string, now: int)
    requires ValidState(s) && |code| > 0
    requires n < |s.superAdmins.accounts| && FindById(s.superAdmins.accounts, id) == Some(n)
    requires Ledger.FindChallenge(s.challenges, id).Some?
    requires Compare(code, Ledger.FindChallenge(s.challenges, id).value.otpHash)
    requires now <= Ledger.FindChallenge(s.challenges, id).value.expiresAt
    ensures var r := VerifyOtp(s, Some(id), Str(code), now);
      && r.response.status == 200
      && ValidState(r.state)
      && |r.state.superAdmins.accounts| == |s.superAdmins.accounts|
      && r.state.superAdmins.accounts[n] == s.superAdmins.accounts[n].(verification := Flag(true))
  {
    VerifyOtpPreservesValid(s, Some(id), Str(code), now);
  }

  /**
   * The whole flow: a registration whose mail is delivered is refused at
   * login as unverified; verifying with the mailed code within six hours
   * succeeds; the same credentials then log in to the now-verified record.
   */
  lemma {:induction false} RegisterVerifyLogin(
    s: State, form: Form, idDraw: Identifiers.IdDraw, otpDraw: Ledger.OtpDraw, now: int, later: int)
    requires ValidState(s)
    requires RegistrationError(form).None? && !EmailTaken(s.superAdmins, form.email.value)
    requires s.superAdmins.nextId !in s.challenges
    requires now <= later <= now + Ledger.OtpLifetime
    ensures var registered := RegisterSuperAdmin(s, form, idDraw, otpDraw, now, Delivered).state;
      var n := |s.superAdmins.accounts|;
      && n < |registered.superAdmins.accounts|
      && var mail := registered.outbox[|registered.outbox| - 1];
      && var verified := VerifyOtp(registered, Some(s.superAdmins.nextId), Str(mail.code), later);
      && var a := registered.superAdmins.accounts[n];
      && mail.to == EmailKey(form.email.value)
      && LoginSuperAdmin(registered, form.email, form.password) == Rejection(NotVerified)
      && verified.response.status == 200
      && LoginSuperAdmin(verified.state, form.email, form.password)
           == Response(200, Session(Sign(a.id), a.(verification := Flag(true))))
  {
    var id := s.superAdmins.nextId;
    var n := |s.superAdmins.accounts|;
    var code := Ledger.OtpCode(otpDraw);
    RegisteredRecord(s, form, idDraw, otpDraw, now);
    var registered := RegisterSuperAdmin(s, form, idDraw, otpDraw, now, Delivered).state;
    VerifiedLogsIn(registered, form.email, form.password, n);
    VerifiedRecord(registered, id, n, code, later);
    var verified := VerifyOtp(registered, Some(id), Str(code), later);
    VerifiedLogsIn(verified.state, form.email, form.password, n);
  }

  // ---- Profile update ----

  /** The update check ignores the password, the age, the marital status and the nationality. */
  lemma UpdateCheckIgnores(form: Form, password: Field, age: Field, maritalStatus: Field, nationality: Field)
    ensures UpdateRequiredFieldsError(form.(password := password, details := form.details.(
      age := age, maritalStatus := maritalStatus, nationality := nationality)))
      == UpdateRequiredFieldsError(form)
  {
  }

  /** A body that passes the update check passes the registration checks up to the password. */
  lemma UpdateCheckCoversNames(form: Form)
    requires UpdateRequiredFieldsError(form).None?
    ensures RegistrationError(form) in {None, Some(PasswordMissing), Some(PasswordTooShort)}
  {
  }
}

=== FILE: superadmin_model.dfy ===
/**
 * The SuperAdmin schema's own logic: its public id default, its email
 * validator and its `isVerified` path, which defaults to false.
 */
module SuperAdminModel {
  import opened Wrappers
  import opened Text
  import Identifiers
  import opened EmailPattern
  import opened Accounts

  const IdPrefix := 'S'

  /** `generateUniqueSuperAdminId`: "S", two random capitals, five random digits. */
  function GenerateId(draw: Identifiers.IdDraw): (id: string)
    ensures |id| == 8 && id[0] == 'S'
    ensures IsUpper(id[1]) && IsUpper(id[2]) && AllDigits(id[3..])
    ensures Identifiers.Parse(IdPrefix, id) == Some(draw)
  {
    Identifiers.ParseGenerate(IdPrefix, draw);
    Identifiers.Generate(IdPrefix, draw)
  }

  /** The pattern the `email` path's `match` validator is written with: `EmailPathValid(raw, EmailAsWritten)` is the path as written, `ValidEmail` the corrected one. */
  const EmailAsWritten := FourGroupAsWritten

  /** `isVerified: { type: Boolean, default: false }`: always a boolean, true only when set so. */
  function ResolveIsVerified(v: Option<bool>): (r: Verification)
    ensures r.Flag?
    ensures IsVerified(r) <==> v == Some(true)
    ensures v.None? ==> r == Flag(false)
  {
    Flag(v.GetOr(false))
  }
}

=== FILE: text.dfy ===
/**
 * Character classes, decimal numerals and the few JavaScript string
 * operations the backend relies on: `Number.prototype.toString`,
 * `String.prototype.padStart`, `String.prototype.trim`, the `length`
 * property (in UTF-16 code units), and splitting on a separator.
 */
module Text {

  predicate IsDigit(c: char) { '0' <= c <= '9' }
  predicate IsUpper(c: char) { 'A' <= c <= 'Z' }
  predicate IsLower(c: char) { 'a' <= c <= 'z' }
  predicate IsAsciiLetter(c: char) { IsUpper(c) || IsLower(c) }

  predicate AllDigits(s: string)
  {
    forall i :: 0 <= i < |s| ==> IsDigit(s[i])
  }

  function DigitValue(c: char): (d: nat)
    requires IsDigit(c)
    ensures d < 10
  {
    c as int - '0' as int
  }

  function DigitChar(d: nat): (c: char)
    requires d < 10
    ensures IsDigit(c) && DigitValue(c) == d
  {
    ('0' as int + d) as char
  }

  /** A digit character is the character of its own value. */
  lemma DigitCharValue(c: char)
    requires IsDigit(c)
    ensures DigitChar(DigitValue(c)) == c
  {
    assert (('0' as int + (c as int - '0' as int)) as char) as int == c as int;
  }

  function Pow10(k: nat): (p: nat)
    ensures p >= 1
  {
    if k == 0 then 1 else 10 * Pow10(k - 1)
  }

  /** The value of a string of decimal digits, most significant first. */
  function ParseDecimal(s: string): (n: nat)
    requires AllDigits(s)
    ensures n < Pow10(|s|)
  {
    if |s| == 0 then 0 else ParseDecimal(s[..|s| - 1]) * 10 + DigitValue(s[|s| - 1])
  }

  /** `n.toString()` for a non-negative integer: its decimal numeral without leading zeros. */
  function DecimalString(n: nat): (r: string)
    ensures 1 <= |r| && AllDigits(r)
    ensures ParseDecimal(r) == n
    ensures |r| == 1 <==> n < 10
    ensures |r| > 1 ==> r[0] != '0'
  {
    if n < 10 then
      [DigitChar(n)]
    else
      var r := DecimalString(n / 10) + [DigitChar(n % 10)];
      assert r[..|r| - 1] == DecimalString(n / 10);
      r
  }

  /** `k` copies of the character `c`. */
  function Repeat(c: char, k: nat): (r: string)
    ensures |r| == k && forall i :: 0 <= i < k ==> r[i] == c
  {
    seq(k, _ => c)
  }

  /**
   * `s.padStart(width, fill)` for a one-character fill. Every string
   * padded in this model is made of ASCII digits, so its length in
   * characters is its length in UTF-16 code units.
   */
  function PadStart(s: string, width: nat, fill: char): (r: string)
    ensures |r| == if |s| >= width then |s| else width
    ensures r[|r| - |s|..] == s
    ensures forall i :: 0 <= i < |r| - |s| ==> r[i] == fill
  {
    if |s| >= width then s else Repeat(fill, width - |s|) + s
  }

  /** The `length` JavaScript reports: characters beyond U+FFFF take two UTF-16 code units. */
  function Utf16Length(s: string): (n: nat)
    ensures |s| <= n <= 2 * |s|
    ensures n == |s| <==> forall i :: 0 <= i < |s| ==> s[i] as int < 0x1_0000
  {
    if |s| == 0 then 0
    else Utf16Length(s[..|s| - 1]) + CodeUnits(s[|s| - 1])
  }

  /** How many UTF-16 code units one character takes: two beyond U+FFFF, one otherwise. */
  function CodeUnits(c: char): (k: nat)
    ensures k == 1 || k == 2
    ensures k == 2 <==> c as int >= 0x1_0000
  {
    if c as int >= 0x1_0000 then 2 else 1
  }

  /** One character is as long as its own code units. */
  lemma Utf16LengthOne(c: char)
    ensures Utf16Length([c]) == CodeUnits(c)
  {
    assert [c][..0] == [];
  }

  /** The length in code units is additive over concatenation. */
  lemma {:induction false} Utf16LengthConcat(a: string, b: string)
    ensures Utf16Length(a + b) == Utf16Length(a) + Utf16Length(b)
    decreases |b|
  {
    if |b| > 0 {
      var b' := b[..|b| - 1];
      assert (a + b)[..|a + b| - 1] == a + b';
      assert (a + b)[|a + b| - 1] == b[|b| - 1];
      Utf16LengthConcat(a, b');
    } else {
      assert a + b == a;
    }
  }

  /** The ECMAScript line terminators: LF, CR, LINE SEPARATOR, PARAGRAPH SEPARATOR. */
  predicate IsLineTerminator(c: char)
  {
    var k := c as int;
    k == 0x0A || k == 0x0D || k == 0x2028 || k == 0x2029
  }

  /** The characters of the regular-expression class `\s`, which are also what `trim` removes. */
  function IsJsWhitespace(c: char): (w: bool)
    ensures IsLineTerminator(c) ==> w
    ensures c as int < 0x80 ==> (w <==> c as int in {0x09, 0x0A, 0x0B, 0x0C, 0x0D, 0x20})
    ensures w ==> c as int < 0x1_0000
  {
    var k := c as int;
    || IsLineTerminator(c)
    || k == 0x09 || k == 0x0B || k == 0x0C || k == 0x20 || k == 0xA0 || k == 0x1680
    || (0x2000 <= k <= 0x200A)
    || k == 0x202F || k == 0x205F || k == 0x3000 || k == 0xFEFF
  }

  /** `s.trimStart()`: the suffix left once leading whitespace is removed. */
  function TrimStart(s: string): (r: string)
    ensures |r| <= |s| && r == s[|s| - |r|..]
    ensures forall i :: 0 <= i < |s| - |r| ==> IsJsWhitespace(s[i])
    ensures |r| > 0 ==> !IsJsWhitespace(r[0])
  {
    if |s| > 0 && IsJsWhitespace(s[0]) then TrimStart(s[1..]) else s
  }

  /** `s.trimEnd()`: the prefix left once trailing whitespace is removed. */
  function TrimEnd(s: string): (r: string)
    ensures |r| <= |s| && r == s[..|r|]
    ensures forall i :: |r| <= i < |s| ==> IsJsWhitespace(s[i])
    ensures |r| > 0 ==> !IsJsWhitespace(r[|r| - 1])
  {
    if |s| > 0 && IsJsWhitespace(s[|s| - 1]) then TrimEnd(s[..|s| - 1]) else s
  }

  /** The characters before `i` and from `j` on are all whitespace. */
  predicate WhitespaceOutside(s: string, i: nat, j: nat)
    requires i <= j <= |s|
  {
    && (forall k :: 0 <= k < i ==> IsJsWhitespace(s[k]))
    && (forall k :: j <= k < |s| ==> IsJsWhitespace(s[k]))
  }

  /** `s.trim()`: the input with its leading and trailing whitespace removed, and nothing else. */
  function Trim(s: string): (r: string)
    ensures |r| <= |s|
    ensures exists i, j :: 0 <= i <= j <= |s| && r == s[i..j] && WhitespaceOutside(s, i, j)
    ensures |r| > 0 ==> !IsJsWhitespace(r[0]) && !IsJsWhitespace(r[|r| - 1])
    ensures (|s| == 0 || (!IsJsWhitespace(s[0]) && !IsJsWhitespace(s[|s| - 1]))) ==> r == s
  {
    var t := TrimStart(s);
    var r := TrimEnd(t);
    TrimEndOfSuffix(s, t, r);
    r
  }

  /** Cutting leading whitespace off `s`, then trailing whitespace off the rest, leaves a slice of `s`. */
  lemma TrimEndOfSuffix(s: string, t: string, r: string)
    requires |t| <= |s| && t == s[|s| - |t|..]
    requires forall k :: 0 <= k < |s| - |t| ==> IsJsWhitespace(s[k])
    requires |r| <= |t| && r == t[..|r|]
    requires forall k :: |r| <= k < |t| ==> IsJsWhitespace(t[k])
    ensures var i := |s| - |t|; r == s[i..i + |r|] && WhitespaceOutside(s, i, i + |r|)
    ensures |r| > 0 ==> r[0] == t[0]
  {
    var i := |s| - |t|;
    forall k | i + |r| <= k < |s|
      ensures IsJsWhitespace(s[k])
    {
      assert s[k] == t[k - i];
    }
  }

  /** Cutting `s` to `s[i..j]` removes only whitespace, and leaves no whitespace at either end. */
  predicate TrimCut(s: string, i: nat, j: nat)
  {
    && i <= j <= |s|
    && WhitespaceOutside(s, i, j)
    && (i < j ==> !IsJsWhitespace(s[i]) && !IsJsWhitespace(s[j - 1]))
  }

  /** A cut that keeps nothing shows the whole string is whitespace. */
  lemma EmptyCutAllWhitespace(s: string, i: nat, j: nat)
    requires TrimCut(s, i, j)
    ensures i == j ==> forall k :: 0 <= k < |s| ==> IsJsWhitespace(s[k])
  {
    if i == j {
      forall k | 0 <= k < |s|
        ensures IsJsWhitespace(s[k])
      {
        if k < i {
        } else {
        }
      }
    }
  }

  /** There is only one trim cut of a string. */
  lemma TrimCutUnique(s: string, i: nat, j: nat, i': nat, j': nat)
    requires TrimCut(s, i, j) && TrimCut(s, i', j')
    ensures s[i..j] == s[i'..j']
  {
    EmptyCutAllWhitespace(s, i, j);
    EmptyCutAllWhitespace(s, i', j');
    if i < j {
      assert i == i' && j == j';
    }
  }

  /**
   * Trim is the only way to cut whitespace off both ends: any slice whose
   * outside is whitespace and whose ends are not is the trimmed string.
   */
  lemma TrimCharacterized(s: string, i: nat, j: nat)
    requires TrimCut(s, i, j)
    ensures Trim(s) == s[i..j]
  {
    var r := Trim(s);
    var i', j' :| 0 <= i' <= j' <= |s| && r == s[i'..j'] && WhitespaceOutside(s, i', j');
    SliceIsCut(s, r, i', j');
    TrimCutUnique(s, i, j, i', j');
  }

  /** A slice with whitespace only outside it and none at its ends is a trim cut. */
  lemma SliceIsCut(s: string, r: string, i: nat, j: nat)
    requires i <= j <= |s| && r == s[i..j] && WhitespaceOutside(s, i, j)
    requires |r| > 0 ==> !IsJsWhitespace(r[0]) && !IsJsWhitespace(r[|r| - 1])
    ensures TrimCut(s, i, j)
  {
    if i < j {
      assert r[0] == s[i] && r[|r| - 1] == s[j - 1];
    }
  }

  /** Trimming twice is trimming once. */
  lemma TrimIdempotent(s: string)
    ensures Trim(Trim(s)) == Trim(s)
  {
    var r := Trim(s);
    TrimCharacterized(r, 0, |r|);
    assert r[0..|r|] == r;
  }

  /** The parts joined with the separator between consecutive parts. */
  function Join(parts: seq<string>, sep: char): string
  {
    if |parts| == 0 then []
    else if |parts| == 1 then parts[0]
    else parts[0] + [sep] + Join(parts[1..], sep)
  }

  /** `s.split(sep)`: the maximal separator-free pieces, empty ones included. */
  function Split(s: string, sep: char): (parts: seq<string>)
    ensures |parts| >= 1
    ensures forall i :: 0 <= i < |parts| ==> sep !in parts[i]
    ensures Join(parts, sep) == s
  {
    if |s| == 0 then [[]]
    else
      var rest := Split(s[1..], sep);
      if s[0] == sep then
        var parts := [[]] + rest;
        assert parts[1..] == rest;
        parts
      else
        var parts := [[s[0]] + rest[0]] + rest[1..];
        assert |rest| > 1 ==> parts[1..] == rest[1..] && Join(rest, sep) == rest[0] + [sep] + Join(rest[1..], sep);
        assert s == [s[0]] + s[1..];
        parts
  }

  /** A leading non-separator joins the first piece of the rest. */
  lemma SplitCons(c: char, s: string, sep: char)
    requires c != sep
    ensures Split([c] + s, sep) == [[c] + Split(s, sep)[0]] + Split(s, sep)[1..]
  {
    assert ([c] + s)[1..] == s;
  }

  /** A non-empty prefix is its first character followed by the rest. */
  lemma ConsPrefix(p: string, t: string)
    requires |p| > 0
    ensures p + t == [p[0]] + (p[1..] + t)
  {
  }

  /** Splitting a separator-free prefix onto a tail extends the tail's first piece. */
  lemma {:induction false} SplitPrefix(p: string, t: string, sep: char)
    requires sep !in p
    ensures Split(p + t, sep) == [p + Split(t, sep)[0]] + Split(t, sep)[1..]
    decreases |p|
  {
    if |p| > 0 {
      var x := Split(t, sep);
      SplitPrefix(p[1..], t, sep);
      ConsPrefix(p, t);
      SplitCons(p[0], p[1..] + t, sep);
      ConsPrefix(p, x[0]);
    } else {
      assert p + t == t;
      assert p + Split(t, sep)[0] == Split(t, sep)[0];
    }
  }

  /** A leading separator splits off an empty first piece. */
  lemma SplitLeadingSep(t: string, sep: char)
    ensures Split([sep] + t, sep) == [[]] + Split(t, sep)
  {
    assert ([sep] + t)[1..] == t;
  }

  /** A separator-free string splits into itself alone. */
  lemma SplitNoSep(p: string, sep: char)
    requires sep !in p
    ensures Split(p, sep) == [p]
  {
    SplitPrefix(p, [], sep);
    assert p + [] == p;
  }

  /** Joining one more separator-free part in front adds that part in front of the split. */
  lemma SplitJoinStep(head: string, rest: seq<string>, sep: char)
    requires sep !in head && |rest| >= 1
    requires Split(Join(rest, sep), sep) == rest
    ensures Split(Join([head] + rest, sep), sep) == [head] + rest
  {
    var tail := Join(rest, sep);
    assert ([head] + rest)[1..] == rest;
    assert Join([head] + rest, sep) == head + ([sep] + tail);
    SplitLeadingSep(tail, sep);
    SplitPrefix(head, [sep] + tail, sep);
    assert head + [] == head;
  }

  /** Split undoes Join when no part contains the separator. */
  lemma {:induction false} SplitJoin(parts: seq<string>, sep: char)
    requires |parts| >= 1
    requires forall i :: 0 <= i < |parts| ==> sep !in parts[i]
    ensures Split(Join(parts, sep), sep) == parts
    decreases |parts|
  {
    if |parts| == 1 {
      SplitNoSep(parts[0], sep);
    } else {
      SplitJoin(parts[1..], sep);
      SplitJoinStep(parts[0], parts[1..], sep);
      assert [parts[0]] + parts[1..] == parts;
    }
  }

  /** A character other than the separator occurs in a join only if it occurs in a part. */
  lemma {:induction false} JoinAvoids(parts: seq<string>, sep: char, c: char)
    requires c != sep
    requires forall i :: 0 <= i < |parts| ==> c !in parts[i]
    ensures c !in Join(parts, sep)
    decreases |parts|
  {
    if |parts| > 1 {
      JoinAvoids(parts[1..], sep, c);
    }
  }

  /** A join of non-empty, separator-free parts neither starts nor ends with the separator, nor doubles it. */
  lemma {:induction false} JoinShape(parts: seq<string>, sep: char)
    requires |parts| >= 1
    requires forall i :: 0 <= i < |parts| ==> |parts[i]| >= 1 && sep !in parts[i]
    ensures var s := Join(parts, sep);
      && |s| >= 1 && s[0] != sep && s[|s| - 1] != sep
      && forall i :: 0 <= i < |s| - 1 ==> !(s[i] == sep && s[i + 1] == sep)
    decreases |parts|
  {
    if |parts| > 1 {
      JoinShape(parts[1..], sep);
      var p := parts[0];
      var t := Join(parts[1..], sep);
      var s := Join(parts, sep);
      assert s == p + [sep] + t;
      forall i | 0 <= i < |s| - 1
        ensures !(s[i] == sep && s[i + 1] == sep)
      {
        if i < |p| {
          assert s[i] == p[i];
        } else if i == |p| {
          assert s[i + 1] == t[0];
        } else {
          assert s[i] == t[i - |p| - 1] && s[i + 1] == t[i - |p|];
        }
      }
    }
  }

  /** All the characters of a digit string of `k` zeros make the number zero, and conversely. */
  lemma {:induction false} ParseDecimalZero(s: string)
    requires AllDigits(s)
    ensures ParseDecimal(s) == 0 <==> s == Repeat('0', |s|)
    decreases |s|
  {
    if |s| > 0 {
      var u := s[..|s| - 1];
      ParseDecimalZero(u);
      assert s == u + [s[|s| - 1]];
      if s == Repeat('0', |s|) {
        assert u == Repeat('0', |u|);
      }
    }
  }

  /** Appending a character commutes with left-padding with zeros to one less width. */
  lemma {:induction false} PadStartSnoc(x: string, c: char, width: nat)
    requires width >= 1
    ensures PadStart(x + [c], width, '0') == PadStart(x, width - 1, '0') + [c]
  {
  }

  /** The last digit of a numeral adds its value to ten times the value of the rest. */
  lemma ParseDecimalSnoc(u: string, c: char)
    requires AllDigits(u) && IsDigit(c)
    ensures AllDigits(u + [c]) && ParseDecimal(u + [c]) == ParseDecimal(u) * 10 + DigitValue(c)
  {
    assert (u + [c])[..|u|] == u;
  }

  /** The numeral of `10 * m + d` is the numeral of `m` followed by the digit `d`. */
  lemma DecimalStringSnoc(n: nat, m: nat, d: nat)
    requires m >= 1 && d < 10 && n == m * 10 + d
    ensures DecimalString(n) == DecimalString(m) + [DigitChar(d)]
  {
    assert n / 10 == m && n % 10 == d;
  }

  /** Zeros followed by one digit are the zero-padded numeral of that digit. */
  lemma PaddedZerosThenDigit(u: string, c: char)
    requires u == Repeat('0', |u|) && IsDigit(c)
    ensures PadStart(DecimalString(DigitValue(c)), |u| + 1, '0') == u + [c]
  {
    assert DigitChar(DigitValue(c)) == c;
    assert DecimalString(DigitValue(c)) == [c];
  }

  /**
   * Every `width`-digit string is the zero-padded numeral of its own value:
   * `n.toString().padStart(width, '0')` can be read back uniquely.
   */
  lemma {:induction false} PaddedNumeralOfValue(t: string)
    requires |t| >= 1 && AllDigits(t)
    ensures PadStart(DecimalString(ParseDecimal(t)), |t|, '0') == t
    decreases |t|
  {
    var u := t[..|t| - 1];
    var c := t[|t| - 1];
    assert t == u + [c];
    ParseDecimalSnoc(u, c);
    if ParseDecimal(u) == 0 {
      ParseDecimalZero(u);
      PaddedZerosThenDigit(u, c);
    } else {
      PaddedNumeralOfValue(u);
      PaddedStep(u, c, ParseDecimal(t));
    }
  }

  /** Appending a character to a string padded to width w pads the extended string to width w + 1. */
  lemma PadAppend(x: string, u: string, c: char)
    requires PadStart(x, |u|, '0') == u
    ensures PadStart(x + [c], |u| + 1, '0') == u + [c]
  {
    PadStartSnoc(x, c, |u| + 1);
  }

  lemma PaddedStep(u: string, c: char, n: nat)
    requires AllDigits(u) && IsDigit(c) && ParseDecimal(u) >= 1
    requires n == ParseDecimal(u) * 10 + DigitValue(c)
    requires PadStart(DecimalString(ParseDecimal(u)), |u|, '0') == u
    ensures PadStart(DecimalString(n), |u| + 1, '0') == u + [c]
  {
    var x := DecimalString(ParseDecimal(u));
    DecimalStringSnoc(n, ParseDecimal(u), DigitValue(c));
    DigitCharValue(c);
    PadAppend(x, u, c);
  }

  /** A numeral whose value is below 10^k has at most k digits. */
  lemma DecimalStringWidth(n: nat, k: nat)
    requires k >= 1 && n < Pow10(k)
    ensures |DecimalString(n)| <= k
  {
    var r := DecimalString(n);
    if |r| > 1 {
      ParseDecimalLowerBound(r);
      if |r| - 1 >= k {
        PowMonotone(k, |r| - 1);
      }
    }
  }

  lemma {:induction false} PowMonotone(a: nat, b: nat)
    requires a <= b
    ensures Pow10(a) <= Pow10(b)
    decreases b
  {
    if a < b {
      PowMonotone(a, b - 1);
    }
  }

  /** A numeral of length k with a non-zero first digit is at least 10^(k-1). */
  lemma {:induction false} ParseDecimalLowerBound(s: string)
    requires |s| >= 1 && AllDigits(s) && s[0] != '0'
    ensures ParseDecimal(s) >= Pow10(|s| - 1)
    decreases |s|
  {
    if |s| > 1 {
      var u := s[..|s| - 1];
      ParseDecimalLowerBound(u);
    }
  }
}

=== FILE: user_model.dfy ===
/**
 * The User schema's own logic: its public id default, its email validator
 * and its `isVerified` path, which is declared without a default.
 */
module UserModel {
  import opened Wrappers
  import opened Text
  import Identifiers
  import opened EmailPattern
  import opened Accounts

  const IdPrefix := 'U'

  /** `generateUniqueUserId`: "U", two random capitals, five random digits. */
  function GenerateId(draw: Identifiers.IdDraw): (id: string)
    ensures |id| == 8 && id[0] == 'U'
    ensures IsUpper(id[1]) && IsUpper(id[2]) && AllDigits(id[3..])
    ensures Identifiers.Parse(IdPrefix, id) == Some(draw)
  {
    Identifiers.ParseGenerate(IdPrefix, draw);
    Identifiers.Generate(IdPrefix, draw)
  }

  /** The pattern the `email` path's `match` validator is written with: `EmailPathValid(raw, EmailAsWritten)` is the path as written, `ValidEmail` the corrected one. */
  const EmailAsWritten := TwoGroupAsWritten

  /** `isVerified: { type: Boolean, required: false }`: with no default, a record created without it has none. */
  function ResolveIsVerified(v: Option<bool>): (r: Verification)
    ensures r.Unset? <==> v.None?
    ensures v.Some? ==> r == Flag(v.value)
    ensures IsVerified(r) <==> v == Some(true)
  {
    match v
    case None => Unset
    case Some(b) => Flag(b)
  }
}

=== FILE: wrappers.dfy ===
/** Optional values, used wherever a lookup may find nothing. */
module Wrappers {

  datatype Option<+T> = None | Some(value: T) {

    /** Returns the value held in Some, or the default when None. */
    function GetOr(default: T): T
    {
      match this
      case Some(v) => v
      case None => default
    }
  }
}
